=== FILE: README.md ===
# LecToCal lesson extraction, in Dafny

LecToCal copies a Lectio school timetable into a calendar. Each lesson
appears on a Lectio week page as a tile. A tile has a link (`href`) and
a block of text (`data-additionalinfo`). Its text is read like this:

- An optional status line (`Ændret!` or `Aflyst!`) and an optional
  title come first.
- Then come header lines: a time line (`14/3-2016 15:20 til 16:50`), a
  room (`Lokale: 204`), the classes (`Hold: 1a`), resources
  (`Ressourcer: …`) and free text.
- After the first blank line comes a free-form description.

`lectocal/lectio.py` turns that text into a summary, a status, a start
and an end, a location, a description and a header-entry flag
(`is_top`). It also takes a lesson id and an absolute address from the
link. It drops the tiles that the `show_top` and `show_cancelled` flags
hide. Finally it merges the weekly schedules, keeping the first copy of
each lesson.

This project models that logic as pure functions over `seq<char>` and
proves properties of them. The modules follow the program:

| file | module | what it holds |
|---|---|---|
| `wrappers.dfy` | `Wrappers`, `Errors` | `Option`, `Result`, and one error per exception the extraction can raise |
| `patterns.dfy` | `Patterns` | `re.search` as a leftmost-index search over anchored matchers; literal search; `.*` |
| `strings.dfy` | `Strings` | `str.splitlines`, `sep.join`, `str.replace` |
| `timelines.dfy` | `TimeLines` | the two time-line patterns, the calendar check of `strptime`, `_get_time_from_line` |
| `linekinds.dfy` | `LineKinds` | status, location, groups and resources lines; the classification order |
| `extraction.dfy` | `Extraction` | the joiners, the line walk, the summary clean-up, the composition, `_extract_lesson_info` |
| `links.dfy` | `Links` | `_get_id_from_link`, `_get_complete_link` |
| `dedup.dfy` | `Dedup` | `_filter_for_duplicates` and its reference, the first occurrences |
| `schedule.dfy` | `Schedule` | the tile-to-lesson filter, the page loop, merging the weeks |
| `scenarios.dfy` | `Scenarios` | worked examples computed from the model |

How the regular expressions are modelled:

- `re.search` returns the match at the smallest index where the pattern
  matches (`Patterns.SearchFrom`).
- Every pattern is a hand-written recogniser anchored at an index. Where
  the regular expression backtracks, the recogniser tries the choices in
  the regex engine's order:
  - `\d{1,2}` tries two digits, then one;
  - an optional group is tried first, then skipped;
  - the alternation `Lokaler?` tries `Lokaler: `, then `Lokale: `.
- A failed `strptime` raises `ValueError` in the source. Here it is the
  error `InvalidDateTimeValue`, so an impossible date or clock
  (`31/2-2016`, `24:00`) is an error result rather than a precondition.

Dates follow the proleptic Gregorian calendar from year 1, as Python's
`datetime` does.

## Model

| member | source | states |
|---|---|---|
| `Links.DigitRun` | lectocal/lectio.py:121 | `\d+` is greedy: the captured digits are the longest run of digits at that index |
| `Links.KeyedIdAt` | lectocal/lectio.py:120-121 | at one index the alternation takes the first key that is followed by `=` and a digit; there is no match exactly when no key fits; a match is a non-empty digit string |
| `Links.GetIdFromLink` | lectocal/lectio.py:119-124 | the id is a non-empty digit string, taken at the leftmost index where a key, `=` and a digit occur; `None` exactly when no such index exists, and that is not an error |
| `Links.GetCompleteLink` | lectocal/lectio.py:127-128 | the address is `https://www.lectio.dk` followed by a prefix of the link; that prefix is the whole link or stops right before a `&prevurl=`, and it contains no `&prevurl=` itself, so it is the part before the first one |
| `LineKinds.GetStatusFromLine` | lectocal/lectio.py:136-140 | exactly `Ændret!` gives changed and exactly `Aflyst!` gives cancelled; every other line is `InvalidStatusError` with that line |
| `LineKinds.MarkersAreStatusLines` | lectocal/lectio.py:131-133 | both status words are status lines by the search pattern |
| `LineKinds.GetLocationFromLine` | lectocal/lectio.py:148-153 | fails with `InvalidLocationError` exactly when no `Lokale: ` or `Lokaler: ` occurs; otherwise the result is the rest of the line after the leftmost marker, which may be empty |
| `LineKinds.LocationLineIsRead` | lectocal/lectio.py:143-153 | a line the location test accepts is read without error |
| `LineKinds.GetGroupsFromLine` | lectocal/lectio.py:156-165 | fails exactly when `Hold: ` occurs nowhere; on a line starting with it the result is the rest of that line |
| `LineKinds.GetResourcesFromLine` | lectocal/lectio.py:168-177 | fails exactly when `Ressourcer: ` occurs nowhere; on a line starting with it the result is the rest of that line |
| `LineKinds.ClassifiedLineIsRead` | lectocal/lectio.py:285-292 | under the order time, location, groups, resources, a location, groups or resources line is always read; a time line can only fail on an impossible date or clock |
| `TimeLines.NumberThen` | lectocal/lectio.py:212 | `\d{1,2}` followed by the separator takes two digits when they are followed by it, otherwise one; the value is the number those digits spell, and there is no match exactly when neither layout is there |
| `TimeLines.FourDigitsAt` | lectocal/lectio.py:212 | `\d{4}` matches exactly when four digits follow, and its value is the number they spell |
| `TimeLines.DateAt` | lectocal/lectio.py:212 | a `D/M-YYYY` token spans 8 to 10 characters; the date read is day, month and year as the digit groups spell them, laid out as one or two digits, `/`, one or two digits, `-`, four digits |
| `TimeLines.DateLayoutRead` | lectocal/lectio.py:212 | conversely, every such layout is read as that date, ending after the year |
| `TimeLines.ClockAt` | lectocal/lectio.py:212-213 | `\d{2}:\d{2}` matches exactly on two digits, a colon and two digits, and the clock is the hour and minute they spell |
| `TimeLines.TimeLineAtMakesTimeLine` | lectocal/lectio.py:180-189 | a match of the time-line pattern at any index makes the line a time line |
| `TimeLines.TimeFieldsAt` | lectocal/lectio.py:212-213 | the reading pattern matches where a date does and its start date is that date; a start time is read exactly when an end time is, and an end date only with them; when read, ` <start> til <end>` is written right after the date, the end being a clock with an optional space or an end date, an optional space and a clock; when not read, no such group is written there at all |
| `TimeLines.EndReadsRead` | lectocal/lectio.py:212-213 | the optional end date and the optional space are read as written: wherever an end is written, it is the end read there, since a date and a clock cannot start at the same place |
| `TimeLines.RangeReadsRead` | lectocal/lectio.py:212-213 | wherever ` <start> til <end>` is written, the optional group reads exactly those clocks and that end date |
| `TimeLines.ToTimeRange` | lectocal/lectio.py:217-238 | fails exactly on an impossible date or clock; no start time gives `is_top` and a date-only start; a missing end date is the start date; the end is a date and time exactly when an end time was read |
| `TimeLines.GetTimeFromLine` | lectocal/lectio.py:206-238 | `InvalidTimeLineError` exactly when the line holds no date; the only other failure is an impossible date or clock; `is_top` holds exactly when the start is date-only, and then the end is date-only too |
| `TimeLines.GetTimeFromLineReads` | lectocal/lectio.py:212-217 | the result is computed from the fields at the leftmost date of the line |
| `TimeLines.TimeLineHasFields` | lectocal/lectio.py:187-215 | reading a line that the time-line test accepts never raises `InvalidTimeLineError` |
| `Strings.SplitLines` | lectocal/lectio.py:263 | no line contains a line boundary, and there are no more lines than characters |
| `Strings.SplitLinesJoin` | lectocal/lectio.py:263 | `splitlines` undoes a newline join of lines without boundaries |
| `Strings.SplitLinesInterleave` | lectocal/lectio.py:263 | `splitlines` undoes any joining of lines without boundaries by separators that are each `\r\n` or one boundary character, a separator at the very end included; excluded are only an empty last line with no separator after it and a lone `\r`, an empty line and `\n`, which read as one `\r\n` |
| `Strings.ReplaceAll` | lectocal/lectio.py:299 | replacing by something no longer never lengthens the text |
| `Strings.ReplaceAllAbsent` | lectocal/lectio.py:299 | a text without the pattern comes back unchanged |
| `Strings.ReplaceAllSkipsPrefix` | lectocal/lectio.py:299 | the first occurrence is removed and the text before it is kept |
| `Extraction.JoinersMirror` | lectocal/lectio.py:248-257 | on an empty summary, appending and prepending both give the section; otherwise they join with `" • "` on the respective side |
| `Extraction.AppendSectionJoins` | lectocal/lectio.py:248-251 | appending fragment after fragment gives their `" • "`-join |
| `Extraction.AddLineJoins` | lectocal/lectio.py:241-245 | adding line after line gives their newline join, with the blank lines before the first non-blank one dropped |
| `Extraction.ScanLine` | lectocal/lectio.py:281-296 | one step of the loop fails exactly on a non-blank header line that is classified as a time line and holds an impossible date or clock, and then with that error; it keeps `is_top` in step with the start and end |
| `Extraction.ScanLines` | lectocal/lectio.py:280-296 | the loop can only fail on an impossible date or clock and keeps `is_top` in step with the start and end |
| `Extraction.ScanLinesOk` | lectocal/lectio.py:280-296 | from the header on, the loop succeeds exactly when every time line before the first blank line holds a possible date and clocks; the lines after it never make it fail |
| `Extraction.ScanFields` | lectocal/lectio.py:280-294 | after the loop the location, groups, resources, start, end and `is_top` are those read from the last header line of their kind, and keep their earlier values when there is none |
| `Extraction.LastOfKindIsLast` | lectocal/lectio.py:285-292 | the line a field is taken from is of that kind and no later line is; there is none exactly when no line is of that kind |
| `Extraction.ScanHeaderFields` | lectocal/lectio.py:285-292 | one header line sets exactly the field of its kind, to the value read from it, and leaves the others alone |
| `Extraction.ScanHeaderLine` | lectocal/lectio.py:281-294 | a non-blank header line keeps the walk in the header, leaves the description alone, and adds itself to the summary exactly when it is free text |
| `Extraction.ScanBody` | lectocal/lectio.py:295-296 | after the first blank line every line goes into the description and every other field is left alone |
| `Extraction.ScanJoins` | lectocal/lectio.py:280-296 | the summary is the `" • "`-join of the free-text header lines in order; the description is the newline join of the lines after the first blank line, leading blank lines dropped |
| `Extraction.DropLeadingBlanks` | lectocal/lectio.py:242-244 | the result is a suffix of the lines that does not start with a blank line, and every line dropped before it is blank |
| `Extraction.TeacherAt` | lectocal/lectio.py:300 | a teacher match starts with `Lærer: ` and the captured initials are shorter than the match |
| `Extraction.TeacherAtReads` | lectocal/lectio.py:300 | a match is the marker, the first `(` after it and the first `)` after that, capturing what lies between the parentheses; there is no match after a marker exactly when no `(` after it is followed by a `)` |
| `Extraction.TeacherEntryUnique` | lectocal/lectio.py:300 | conversely, such an entry is what the pattern reads at that index |
| `Extraction.CompactTeachers` | lectocal/lectio.py:300 | the substitution never lengthens the text |
| `Extraction.CompactTeachersAbsent` | lectocal/lectio.py:300 | a text without `Lærer: ` is copied unchanged |
| `Extraction.CompactTeachersNoEntry` | lectocal/lectio.py:300 | text in which the pattern matches nowhere is copied unchanged, even where it holds `Lærer: ` |
| `Extraction.CompactTeachersNoClose` | lectocal/lectio.py:300 | text in which no `(` is followed by a `)` is copied unchanged, so a `Lærer: ` with a bare name is kept |
| `Extraction.CompactTeachersSkip` | lectocal/lectio.py:300 | text without `Lærer: ` in front of the next match is copied as it is |
| `Extraction.CompactTeachersAt` | lectocal/lectio.py:300 | the first match is replaced by its initials, the text before it is copied, and the substitution goes on after the match |
| `Extraction.CompactTeachersEntry` | lectocal/lectio.py:300 | one entry amid text without `Lærer: ` is replaced by its initials and the rest is copied |
| `Extraction.CleanSummary` | lectocal/lectio.py:299-300 | the cleaned summary is never longer than the raw one, and a summary with neither `Lærere: ` nor `Lærer: ` comes back unchanged |
| `Extraction.CleanSummaryDropsTeachersPrefix` | lectocal/lectio.py:299 | a leading `Lærere: ` is dropped before anything else happens |
| `Extraction.CleanSummaryEntry` | lectocal/lectio.py:299-300 | a summary with no `Lærere: ` and one teacher entry shrinks to the text before the entry, the initials and the text after it |
| `Extraction.CleanSummaryEntryText` | lectocal/lectio.py:299-300 | `a` + `Lærer: <name> (<initials>)` + `b` cleans to `a` + initials + `b` when the whole text holds no `Lærere: `, no `Lærer: ` starts inside `a` or inside `b`, the name holds no `(` and the initials no `)` |
| `Extraction.ComposePlacesTitle` | lectocal/lectio.py:307-314 | with groups and no `Alle` among them, the summary starts with the groups and the description with the title and a blank line; otherwise the summary starts with the title |
| `Extraction.ComposeKeepsDescription` | lectocal/lectio.py:303-304 | the description ends with what stood under the blank line, preceded by `Ressoucer: <resources>` and a blank line when there are resources |
| `Extraction.ComposeKeepsLocation` | lectocal/lectio.py:305-306 | a non-empty location ends the summary |
| `Extraction.ComposeEmptyDescription` | lectocal/lectio.py:302-316 | the composed description is empty exactly when there was no description, no resources and the title went into the summary |
| `Extraction.ComposeTexts` | lectocal/lectio.py:302-314 | the summary is the `" • "`-join of the title alone (no groups), the groups alone (groups without `Alle`) or the title then the groups (groups with `Alle`), followed by the cleaned summary and the location, each only when not empty; the description is the title and a blank line (groups without `Alle`), then `Ressoucer: <resources>` and a blank line (resources present), then the text under the blank line |
| `Extraction.ReadPreamble` | lectocal/lectio.py:268-277 | fewer than two lines give no status and no title; a first line holding a status word must be exactly it, or `InvalidStatusError`; changed and cancelled come exactly from those lines; the line after the status line, or the first line without one, is the title exactly when it is not a time line, and the walk starts after what was consumed |
| `Extraction.ExtractLessonInfo` | lectocal/lectio.py:260-319 | only `InvalidStatusError` or an impossible date or clock can escape, and it succeeds exactly when a first line holding a marker is exactly that marker and every header time line after the status and title holds a possible date and clocks; the description is never `""`; `is_top` holds exactly when the start is date-only; a status needs two lines and the matching first line |
| `Extraction.ExtractLessonInfoTexts` | lectocal/lectio.py:260-319 | on success the summary joins the leading sections, the cleaned `" • "`-join of the free-text header lines and the location; the description is the title block, the resources block and the newline join of the lines under the first blank line, or `None` when all are empty; location, groups, resources, start, end and `is_top` come from the last header line of their kind |
| `Schedule.TileLink` | lectocal/lectio.py:323-327 | an absent or empty `href` is kept as it is, without an id; a non-empty one gives the id found in it and the complete link built from it, which starts with the base address |
| `Schedule.ParseElementToLesson` | lectocal/lectio.py:322-337 | it fails exactly when the extraction does, with the same error; the result is `None` exactly when the flags hide a header entry or a cancelled lesson; otherwise the lesson holds exactly the extracted values and the tile's id and link |
| `Schedule.ParsePageToLessons` | lectocal/lectio.py:346-351 | no more lessons than tiles, every lesson is visible under the flags, and every error is one the extraction can raise |
| `Schedule.ParsePageLessons` | lectocal/lectio.py:346-351 | a page that is read holds the lesson of each tile the flags let through, in tile order |
| `Schedule.ParsePageOk` | lectocal/lectio.py:346-351 | a page is read exactly when every tile's text can be extracted |
| `Schedule.ConcatMembers` | lectocal/lectio.py:369-374 | a lesson is in the concatenated schedule exactly when it is in some week |
| `Schedule.RetreiveUserSchedule` | lectocal/lectio.py:368-376 | the merged schedule is the first occurrences of the concatenated weeks; it holds exactly the lessons of all weeks, each of them once |
| `Schedule.DistinctCountsOnce` | lectocal/lectio.py:360-365 | in a de-duplicated schedule every lesson occurs once |
| `Dedup.FilterForDuplicates` | lectocal/lectio.py:360-365 | the loop computes the first occurrences: no duplicates and the same elements as the input |
| `Dedup.FirstOccurrencesMembers` | lectocal/lectio.py:360-365 | nothing is lost and nothing is added |
| `Dedup.FirstOccurrencesDistinct` | lectocal/lectio.py:360-365 | no element is kept twice |
| `Dedup.FirstOccurrencesOfDistinct` | lectocal/lectio.py:360-365 | a schedule without duplicates comes back unchanged |
| `Dedup.Idempotent` | lectocal/lectio.py:360-365 | filtering twice is filtering once |
| `Dedup.IndexOf` | lectocal/lectio.py:363 | the index of the first occurrence: the element is there and not before |
| `Dedup.FirstOccurrencesOrder` | lectocal/lectio.py:360-365 | two lessons keep their relative order of first appearance |
| `Scenarios.MultiDaySpan` | lectocal/lectio.py:184 | `8/4-2016 17:30 til 9/4-2016 01:00` runs from 8/4 17:30 to 9/4 01:00 |
| `Scenarios.SameDayTimes` | lectocal/lectio.py:183 | `14/3-2016 15:20 til 16:50` ends on the start date |
| `Scenarios.WholeDayLine` | lectocal/lectio.py:182 | `14/3-2016 Hele dagen` is a date-only header entry |
| `Scenarios.CancelledWholeDay` | lectocal/lectio.py:260-319 | the text `Aflyst!`, `Math 1a`, `14/3-2016 Hele dagen` gives status cancelled, summary `Math 1a`, no description and a header entry |
| `Scenarios.SameDayLesson` | lectocal/lectio.py:260-319 | the text with a time line, `Lokale: 204` and `Hold: 1a` gives summary `1a • 204`, location `204`, no status; the empty title still puts a blank line into the description |
| `Scenarios.EmptyRoom` | lectocal/lectio.py:149-153 | `Lokale: ` with nothing after it gives the empty location |
| `Scenarios.AllGroupsTitleInSummary` | lectocal/lectio.py:307-312 | for `Alle 1a, 1b` the title leads the summary |
| `Scenarios.ClassTitleInDescription` | lectocal/lectio.py:307-310 | for `1a` the title leads the description |
| `Scenarios.RepeatedLessonKeptOnce` | lectocal/lectio.py:368-376 | a lesson fetched in two weeks is kept once, at its first position |
| `Scenarios.ActivityId` | lectocal/lectio.py:119-124 | `?absid=42&prevurl=x` has id `42` |
| `Scenarios.ActivityCompleteLink` | lectocal/lectio.py:127-128 | `?absid=42&prevurl=x` becomes `https://www.lectio.dk?absid=42` |
| `Scenarios.TeacherInitials` | lectocal/lectio.py:299-300 | `Lærer: Hans Hansen (HH)` shrinks to `HH` |
| `Scenarios.NameOnlyKept` | lectocal/lectio.py:299-300 | `Lærer: Hans Hansen`, with no initials in parentheses, is kept as it is |
| `Scenarios.TeacherLesson` | lectocal/lectio.py:260-319 | the text `Math 1a`, `14/3-2016 Hele dagen`, `Lærer: Hans Hansen (HH)` gives summary `Math 1a • HH`, no status, no location, no description, and is a header entry lasting 14/3-2016 |

## Left out

- The network and session code is not modelled: `_login`, `_get_user_page`, `_user_exists`, `get_schedule` and the global `cookies`. It is HTTP through `requests` plus mutable global state.
- HTML parsing is not modelled. The XPath lookup of the tiles and `element.get` are calls into lxml. A tile is the record `Tile(href, info)`, and a page is the sequence of its tiles.
- The week strings are not modelled. `_get_lectio_weekformat_with_offset` depends on today's date and the ISO calendar. `Schedule.RetreiveUserSchedule` takes the weekly schedules as already fetched.
- `lectocal/run.py` is not part of this model. It holds argument parsing, credential prompts and calendar calls.
- `lectocal/lesson.py` is not part of this model. The `Lesson` record takes its fields from the constructor call at `lectocal/lectio.py:337` and compares them all.
- `\d` here means the ASCII digits only. Python's `\d` on `str` also matches the other Unicode decimal digits.
- A tile without `data-additionalinfo` is not modelled: the source would fail calling `splitlines` on `None`, and the model's text is always a string.
- The source relies on `datetime.time` truthiness. The model follows Python 3.5 and later, where midnight is true. Before 3.5 a start time of `00:00` counted as missing.
- A lesson without a status line has status `None`, as the code leaves it. The table at `lectocal/lectio.py:23` maps `None` to `"normal"`, but the extraction never looks `None` up.
- `IdNotFoundInLinkError`, `UserDoesNotExistError` and `CookiesNotSet` have no counterpart in the model. The first is never raised, and the other two belong to the network code.
- Error messages are not modelled. An error carries the offending line instead.
- Extraction.CompactTeachers: its own contract gives only the length bound. The lemmas state the substitution for text in which the pattern matches nowhere, including a `Lærer: ` with no `(`…`)` after it (`Extraction.CompactTeachersNoEntry`, `Extraction.CompactTeachersNoClose`), and for text holding one entry (`Extraction.CompactTeachersEntry`); for several entries they give only the step from one entry to the next (`Extraction.CompactTeachersAt`).
- Strings.ReplaceAll: its contract gives the length bound, the case without the pattern, and the removal of one occurrence. No general reference definition of `str.replace` is given.

=== FILE: dedup.dfy ===
/** `_filter_for_duplicates`, `lectocal/lectio.py:360-365`: keep each value
    where it occurs first and drop every later equal one. */
module Dedup {

  predicate NoDuplicates<T(==)>(s: seq<T>) {
    forall i, j :: 0 <= i < j < |s| ==> s[i] != s[j]
  }

  /** The reference: the values of `s` at the positions where they occur for
      the first time, in the order of those positions. */
  function FirstOccurrences<T(==)>(s: seq<T>): seq<T>
    decreases |s|
  {
    if s == [] then []
    else
      var init := s[..|s| - 1];
      var last := s[|s| - 1];
      if last in init then FirstOccurrences(init) else FirstOccurrences(init) + [last]
  }

  /** Nothing is lost and nothing is added: the same values as the input. */
  lemma {:induction false} FirstOccurrencesMembers<T>(s: seq<T>)
    ensures forall x :: x in FirstOccurrences(s) <==> x in s
    decreases |s|
  {
    if s != [] {
      var init := s[..|s| - 1];
      FirstOccurrencesMembers(init);
      assert s == init + [s[|s| - 1]];
    }
  }

  /** No value is kept twice. */
  lemma {:induction false} FirstOccurrencesDistinct<T>(s: seq<T>)
    ensures NoDuplicates(FirstOccurrences(s))
    decreases |s|
  {
    if s != [] {
      var init := s[..|s| - 1];
      FirstOccurrencesDistinct(init);
      FirstOccurrencesMembers(init);
    }
  }

  /** A sequence without duplicates is its own first occurrences. */
  lemma {:induction false} FirstOccurrencesOfDistinct<T>(s: seq<T>)
    requires NoDuplicates(s)
    ensures FirstOccurrences(s) == s
    decreases |s|
  {
    if s != [] {
      var init := s[..|s| - 1];
      assert NoDuplicates(init);
      FirstOccurrencesOfDistinct(init);
      assert s[|s| - 1] !in init by {
        forall i | 0 <= i < |init| ensures init[i] != s[|s| - 1] {
          assert init[i] == s[i];
        }
      }
      assert s == init + [s[|s| - 1]];
    }
  }

  /** De-duplicating twice is de-duplicating once. */
  lemma Idempotent<T>(s: seq<T>)
    ensures FirstOccurrences(FirstOccurrences(s)) == FirstOccurrences(s)
  {
    FirstOccurrencesDistinct(s);
    FirstOccurrencesOfDistinct(FirstOccurrences(s));
  }

  /** Index of the first occurrence of `x` in `s`. */
  function IndexOf<T(==)>(s: seq<T>, x: T): (i: nat)
    requires x in s
    ensures i < |s| && s[i] == x && x !in s[..i]
    decreases |s|
  {
    if s[0] == x then 0
    else
      var i := IndexOf(s[1..], x);
      assert s[1..][..i] == s[1..i + 1];
      assert s[..i + 1] == [s[0]] + s[1..i + 1];
      i + 1
  }

  lemma IndexOfPrefix<T>(s: seq<T>, t: seq<T>, x: T)
    requires x in s
    ensures x in s + t && IndexOf(s + t, x) == IndexOf(s, x)
    decreases |s|
  {
    if s[0] != x {
      assert (s + t)[1..] == s[1..] + t;
      IndexOfPrefix(s[1..], t, x);
    }
  }

  /** Order is kept: of two values of the input, the one that occurs first
      in the input occurs first in the result. */
  lemma {:induction false} FirstOccurrencesOrder<T>(s: seq<T>, x: T, y: T)
    requires x in s && y in s
    ensures x in FirstOccurrences(s) && y in FirstOccurrences(s)
    ensures IndexOf(s, x) < IndexOf(s, y) <==> IndexOf(FirstOccurrences(s), x) < IndexOf(FirstOccurrences(s), y)
    decreases |s|
  {
    FirstOccurrencesMembers(s);
    var init := s[..|s| - 1];
    var last := s[|s| - 1];
    var r := FirstOccurrences(init);
    FirstOccurrencesMembers(init);
    assert s == init + [last];
    if x in init && y in init {
      FirstOccurrencesOrder(init, x, y);
      IndexOfPrefix(init, [last], x);
      IndexOfPrefix(init, [last], y);
      if last !in init {
        IndexOfPrefix(r, [last], x);
        IndexOfPrefix(r, [last], y);
      }
    } else if x in init {
      // y occurs only as the last element, which is new
      assert y == last && last !in init;
      IndexOfPrefix(init, [last], x);
      IndexOfPrefix(r, [last], x);
      assert IndexOf(s, y) == |init|;
      assert IndexOf(r + [last], y) == |r|;
    } else if y in init {
      assert x == last && last !in init;
      IndexOfPrefix(init, [last], y);
      IndexOfPrefix(r, [last], y);
      assert IndexOf(s, x) == |init|;
      assert IndexOf(r + [last], x) == |r|;
    } else {
      assert x == last && y == last;
    }
  }

  /** `_filter_for_duplicates`: scans the schedule and appends each value not
      yet kept. The result is the first occurrences of the input. */
  method FilterForDuplicates<T(==)>(schedule: seq<T>) returns (filtered: seq<T>)
    ensures filtered == FirstOccurrences(schedule)
    ensures NoDuplicates(filtered)
    ensures forall x :: x in filtered <==> x in schedule
  {
    filtered := [];
    var i := 0;
    while i < |schedule|
      invariant 0 <= i <= |schedule|
      invariant filtered == FirstOccurrences(schedule[..i])
      invariant forall x :: x in filtered <==> x in schedule[..i]
    {
      var lesson := schedule[i];
      assert schedule[..i + 1][..i] == schedule[..i];
      assert schedule[..i + 1][i] == lesson;
      if lesson !in filtered {
        filtered := filtered + [lesson];
      }
      FirstOccurrencesMembers(schedule[..i + 1]);
      i := i + 1;
    }
    assert schedule[..i] == schedule;
    FirstOccurrencesDistinct(schedule);
  }
}

=== FILE: extraction.dfy ===
/** `_extract_lesson_info`, `lectocal/lectio.py:241-319`: one tile's text
    becomes the summary, status, start, end, location and description of a
    lesson, plus the flag that marks a header (whole-day) entry. */
module Extraction {
  import opened Wrappers
  import opened Errors
  import opened Patterns
  import opened Strings
  import opened TimeLines
  import opened LineKinds

  /** `SPACER`: a bullet between two spaces. */
  const SPACER: string := " \U{2022} "

  // ------------------------------------------------------------- joining

  /** `_add_line_to_text`: a newline goes in only after non-empty text. */
  function AddLineToText(line: string, text: string): string {
    (if text != "" then text + "\n" else "") + line
  }

  /** `_append_section_to_summary`. */
  function AppendSection(section: string, summary: string): string {
    summary + (if summary != "" then SPACER else "") + section
  }

  /** `_prepend_section_to_summary`. */
  function PrependSection(section: string, summary: string): string {
    section + (if summary != "" then SPACER else "") + summary
  }

  /** Both joiners hand back the section alone when the summary is empty, and
      otherwise put exactly one `SPACER` between summary and section, on
      opposite sides. */
  lemma JoinersMirror(section: string, summary: string)
    ensures summary == "" ==> AppendSection(section, summary) == section == PrependSection(section, summary)
    ensures summary != "" ==> AppendSection(section, summary) == summary + SPACER + section
    ensures summary != "" ==> PrependSection(section, summary) == section + SPACER + summary
    ensures section != "" && summary != "" ==> AppendSection(section, summary) == PrependSection(summary, section)
  {
  }

  predicate AllNonEmpty(parts: seq<string>) {
    forall n :: 0 <= n < |parts| ==> parts[n] != ""
  }

  lemma {:induction false} JoinWithSnoc(sep: string, parts: seq<string>, x: string)
    requires parts != []
    ensures JoinWith(sep, parts + [x]) == JoinWith(sep, parts) + sep + x
    decreases |parts|
  {
    if |parts| == 1 {
      assert parts + [x] == [parts[0], x];
      assert [parts[0], x][1..] == [x];
    } else {
      assert (parts + [x])[1..] == parts[1..] + [x];
      JoinWithSnoc(sep, parts[1..], x);
      assert (parts + [x])[0] == parts[0];
    }
  }

  lemma JoinWithNonEmpty(sep: string, parts: seq<string>)
    requires AllNonEmpty(parts)
    ensures JoinWith(sep, parts) == "" <==> parts == []
  {
    if |parts| >= 1 {
      assert parts[0] != "";
    }
  }

  /** Appending one more fragment to a `SPACER`-joined summary joins it too. */
  lemma AppendSectionJoins(parts: seq<string>, x: string)
    requires AllNonEmpty(parts)
    ensures AppendSection(x, JoinWith(SPACER, parts)) == JoinWith(SPACER, parts + [x])
  {
    JoinWithNonEmpty(SPACER, parts);
    if parts == [] {
      assert parts + [x] == [x];
    } else {
      JoinWithSnoc(SPACER, parts, x);
    }
  }

  /** Lines with the blank ones in front removed. */
  function DropLeadingBlanks(lines: seq<string>): (r: seq<string>)
    ensures r == [] || r[0] != ""
    ensures |r| <= |lines| && r == lines[|lines| - |r|..]
    ensures forall j :: 0 <= j < |lines| - |r| ==> lines[j] == ""
    decreases |lines|
  {
    if lines != [] && lines[0] == "" then DropLeadingBlanks(lines[1..]) else lines
  }

  /** Adding one more line to a newline-joined text joins it too, where blank
      lines before the first non-blank one vanish. */
  lemma AddLineJoins(text: seq<string>, line: string)
    requires text == [] || text[0] != ""
    ensures AddLineToText(line, JoinWith("\n", text)) == JoinWith("\n", DropLeadingBlanks(text + [line]))
  {
    if text == [] {
      assert text + [line] == [line];
    } else {
      assert JoinWith("\n", text) != "" by {
        if |text| > 1 {
          assert JoinWith("\n", text) == text[0] + "\n" + JoinWith("\n", text[1..]);
        }
      }
      JoinWithSnoc("\n", text, line);
    }
  }

  // ------------------------------------------------------- the line walk

  /** The local variables of the loop at lines 280-296. */
  datatype Scan = Scan(inHeader: bool, summary: string, description: string,
                       location: Option<string>, groups: string, resources: string,
                       start: Option<When>, end: Option<When>, isTop: bool)

  /** `is_top` holds exactly when the start is a whole day, and a start is
      present exactly when an end is. */
  predicate TimesAgree(isTop: bool, start: Option<When>, end: Option<When>) {
    && (isTop <==> start.Some? && start.value.DateOnly?)
    && (start.Some? <==> end.Some?)
  }

  /** Their values before the loop (lines 261-265). */
  const START_SCAN: Scan := Scan(true, "", "", None, "", "", None, None, false)

  /** One iteration of the loop. A location, groups or resources line is
      read without the possibility of failure (`ClassifiedLineIsRead`), so
      those reads take the value directly. */
  function ScanLine(acc: Scan, line: string): (r: Result<Scan, Error>)
    ensures r.Err? ==> r.error == InvalidDateTimeValue
    ensures r.Err? <==> acc.inHeader && line != "" && Classify(line) == TimeLine && GetTimeFromLine(line).Err?
    ensures r.Ok? && TimesAgree(acc.isTop, acc.start, acc.end) ==> TimesAgree(r.value.isTop, r.value.start, r.value.end)
  {
    ClassifiedLineIsRead(line);
    if !acc.inHeader then Ok(acc.(description := AddLineToText(line, acc.description)))
    else if line == "" then Ok(acc.(inHeader := false))
    else match Classify(line)
      case TimeLine =>
        var t :- GetTimeFromLine(line);
        Ok(acc.(start := Some(t.start), end := Some(t.end), isTop := t.isTop))
      case LocationLine =>
        Ok(acc.(location := Some(GetLocationFromLine(line).value)))
      case GroupsLine =>
        Ok(acc.(groups := GetGroupsFromLine(line).value))
      case ResourcesLine =>
        Ok(acc.(resources := GetResourcesFromLine(line).value))
      case FreeText =>
        Ok(acc.(summary := AppendSection(line, acc.summary)))
  }

  /** A header line leaves the description alone, keeps the walk in the
      header, and adds itself to the summary exactly when it is free text. */
  lemma ScanHeaderLine(acc: Scan, line: string)
    requires acc.inHeader && line != ""
    requires ScanLine(acc, line).Ok?
    ensures ScanLine(acc, line).value.inHeader
    ensures ScanLine(acc, line).value.description == acc.description
    ensures ScanLine(acc, line).value.summary
         == if Classify(line) == FreeText then AppendSection(line, acc.summary) else acc.summary
  {
  }

  /** The whole loop: the first failing line stops it. The only failure a
      line can cause is a date or clock that does not exist. */
  function ScanLines(acc: Scan, lines: seq<string>): (r: Result<Scan, Error>)
    ensures r.Err? ==> r.error == InvalidDateTimeValue
    ensures r.Ok? && TimesAgree(acc.isTop, acc.start, acc.end) ==> TimesAgree(r.value.isTop, r.value.start, r.value.end)
    decreases |lines|
  {
    if lines == [] then Ok(acc)
    else
      var next :- ScanLine(acc, lines[0]);
      ScanLines(next, lines[1..])
  }

  /** The header section: the lines before the first blank one. */
  function HeaderLines(lines: seq<string>): seq<string>
    decreases |lines|
  {
    if lines == [] || lines[0] == "" then [] else [lines[0]] + HeaderLines(lines[1..])
  }

  /** The description section: every line after the first blank one. */
  function BodyLines(lines: seq<string>): seq<string>
    decreases |lines|
  {
    if lines == [] then []
    else if lines[0] == "" then lines[1..]
    else BodyLines(lines[1..])
  }

  /** The lines no classifier accepts, in order. */
  function FreeTextLines(lines: seq<string>): seq<string>
    decreases |lines|
  {
    if lines == [] then []
    else FreeTextPart(lines[0]) + FreeTextLines(lines[1..])
  }

  function FreeTextPart(line: string): seq<string> {
    if Classify(line) == FreeText then [line] else []
  }

  /** Every time line of `header` carries a date and clocks that exist. */
  predicate TimesReadable(header: seq<string>) {
    forall l :: l in header && Classify(l) == TimeLine ==> GetTimeFromLine(l).Ok?
  }

  /** The walk's partner for failure: it succeeds exactly when every time
      line of the header is read; lines after the first blank line never
      make it fail. */
  lemma {:induction false} ScanLinesOk(acc: Scan, lines: seq<string>)
    requires acc.inHeader
    ensures ScanLines(acc, lines).Ok? <==> TimesReadable(HeaderLines(lines))
    decreases |lines|
  {
    if lines == [] {
    } else if lines[0] == "" {
      var body := acc.(inHeader := false);
      assert ScanLines(acc, lines) == ScanLines(body, lines[1..]);
      var text := if acc.description == "" then [] else [acc.description];
      ScanBody(body, lines[1..], text);
    } else {
      HeaderTimesStep(lines);
      if ScanLine(acc, lines[0]).Ok? {
        var next := ScanLine(acc, lines[0]).value;
        ScanHeaderLine(acc, lines[0]);
        assert ScanLines(acc, lines) == ScanLines(next, lines[1..]);
        ScanLinesOk(next, lines[1..]);
      }
    }
  }

  /** A non-blank first line is read along with the rest of the header. */
  lemma HeaderTimesStep(lines: seq<string>)
    requires lines != [] && lines[0] != ""
    ensures TimesReadable(HeaderLines(lines))
        <==> (Classify(lines[0]) == TimeLine ==> GetTimeFromLine(lines[0]).Ok?)
             && TimesReadable(HeaderLines(lines[1..]))
  {
    assert HeaderLines(lines) == [lines[0]] + HeaderLines(lines[1..]);
  }

  /** Past the header the walk only extends the description. */
  lemma {:induction false} ScanBody(acc: Scan, lines: seq<string>, text: seq<string>)
    requires !acc.inHeader
    requires text == [] || text[0] != ""
    requires acc.description == JoinWith("\n", text)
    ensures ScanLines(acc, lines).Ok?
    ensures ScanLines(acc, lines).value.summary == acc.summary
    ensures ScanLines(acc, lines).value.description == JoinWith("\n", DropLeadingBlanks(text + lines))
    ensures ScanLines(acc, lines).value == acc.(description := ScanLines(acc, lines).value.description)
    decreases |lines|
  {
    if lines == [] {
      assert text + lines == text;
      assert DropLeadingBlanks(text) == text;
    } else {
      var text' := DropLeadingBlanks(text + [lines[0]]);
      var acc' := acc.(description := AddLineToText(lines[0], acc.description));
      ScanBodyLine(acc, lines[0]);
      assert ScanLines(acc, lines) == ScanLines(acc', lines[1..]);
      AddLineJoins(text, lines[0]);
      ScanBody(acc', lines[1..], text');
      DropLeadingBlanksSnoc(text, lines);
    }
  }

  /** Past the header a line only extends the description. */
  lemma ScanBodyLine(acc: Scan, line: string)
    requires !acc.inHeader
    ensures ScanLine(acc, line) == Ok(acc.(description := AddLineToText(line, acc.description)))
  {
  }

  lemma DropLeadingBlanksSnoc(text: seq<string>, lines: seq<string>)
    requires text == [] || text[0] != ""
    requires lines != []
    ensures DropLeadingBlanks(DropLeadingBlanks(text + [lines[0]]) + lines[1..]) == DropLeadingBlanks(text + lines)
  {
    var line, rest := lines[0], lines[1..];
    assert [line] + rest == lines;
    assert text + ([line] + rest) == (text + [line]) + rest;
    if text == [] {
      assert text + [line] == [line];
      if line == "" {
        assert ([line] + rest)[1..] == rest;
        assert DropLeadingBlanks([line]) == DropLeadingBlanks([line][1..]) == [];
        assert [] + rest == rest;
      }
    } else {
      assert (text + [line])[0] == text[0];
      assert ((text + [line]) + rest)[0] == text[0];
    }
  }

  /** The walk's partner: the summary it accumulates is the `SPACER`-join of
      the header's free-text lines, in order, and the description is the
      newline-join of the lines after the first blank line, leading blank
      lines dropped. */
  lemma {:induction false} ScanJoins(acc: Scan, lines: seq<string>, frags: seq<string>)
    requires acc.inHeader && acc.description == ""
    requires AllNonEmpty(frags) && acc.summary == JoinWith(SPACER, frags)
    requires ScanLines(acc, lines).Ok?
    ensures ScanLines(acc, lines).value.summary == JoinWith(SPACER, frags + FreeTextLines(HeaderLines(lines)))
    ensures ScanLines(acc, lines).value.description == JoinWith("\n", DropLeadingBlanks(BodyLines(lines)))
    decreases |lines|
  {
    if lines == [] {
      assert frags + [] == frags;
    } else if lines[0] == "" {
      assert ScanLines(acc, lines) == ScanLines(acc.(inHeader := false), lines[1..]);
      ScanBody(acc.(inHeader := false), lines[1..], []);
      assert frags + [] == frags;
      assert [] + lines[1..] == lines[1..];
    } else {
      var next := ScanLine(acc, lines[0]).value;
      assert ScanLines(acc, lines) == ScanLines(next, lines[1..]);
      ScanHeaderLine(acc, lines[0]);
      ScanJoinsStep(acc, next, lines, frags);
    }
  }

  /** The inductive step of `ScanJoins` for a non-blank first line, stated
      over the walk's state `next` after that line. */
  lemma {:induction false} ScanJoinsStep(acc: Scan, next: Scan, lines: seq<string>, frags: seq<string>)
    requires acc.inHeader && acc.description == ""
    requires AllNonEmpty(frags) && acc.summary == JoinWith(SPACER, frags)
    requires lines != [] && lines[0] != ""
    requires next.inHeader && next.description == ""
    requires next.summary == if Classify(lines[0]) == FreeText then AppendSection(lines[0], acc.summary) else acc.summary
    requires ScanLines(next, lines[1..]).Ok?
    ensures ScanLines(next, lines[1..]).value.summary
         == JoinWith(SPACER, frags + FreeTextLines(HeaderLines(lines)))
    ensures ScanLines(next, lines[1..]).value.description
         == JoinWith("\n", DropLeadingBlanks(BodyLines(lines)))
    decreases |lines|, 0
  {
    var line := lines[0];
    var rest := FreeTextLines(HeaderLines(lines[1..]));
    var all := FreeTextLines(HeaderLines(lines));
    var free := Classify(line) == FreeText;
    HeaderFreeText(lines);
    assert BodyLines(lines) == BodyLines(lines[1..]);
    if free {
      assert all == [line] + rest;
      AppendSectionJoins(frags, line);
      SnocJoinFrags(frags, line, rest, all);
      ScanJoins(next, lines[1..], frags + [line]);
    } else {
      assert all == rest;
      ScanJoins(next, lines[1..], frags);
    }
  }

  lemma SnocJoinFrags(frags: seq<string>, line: string, rest: seq<string>, all: seq<string>)
    requires AllNonEmpty(frags) && line != ""
    requires all == [line] + rest
    ensures AllNonEmpty(frags + [line])
    ensures (frags + [line]) + rest == frags + all
  {
  }

  /** The last line of `lines` of the given kind, if there is one. */
  function LastOfKind(lines: seq<string>, kind: LineKind): (r: Option<string>)
    ensures r.Some? ==> Classify(r.value) == kind
    decreases |lines|
  {
    if lines == [] then None
    else
      var later := LastOfKind(lines[1..], kind);
      if later.Some? then later
      else if Classify(lines[0]) == kind then Some(lines[0])
      else None
  }

  /** `LastOfKind` finds nothing exactly when no line is of the kind, and
      otherwise a line of the kind after which no line is of it. */
  lemma {:induction false} LastOfKindIsLast(lines: seq<string>, kind: LineKind)
    ensures LastOfKind(lines, kind).None? <==> forall n :: 0 <= n < |lines| ==> Classify(lines[n]) != kind
    ensures LastOfKind(lines, kind).Some? ==>
      exists n :: 0 <= n < |lines| && lines[n] == LastOfKind(lines, kind).value
                  && forall m :: n < m < |lines| ==> Classify(lines[m]) != kind
    decreases |lines|
  {
    if lines != [] {
      LastOfKindIsLast(lines[1..], kind);
      assert forall m :: 1 <= m < |lines| ==> lines[m] == lines[1..][m - 1];
      var later := LastOfKind(lines[1..], kind);
      if later.Some? {
        var n :| 0 <= n < |lines[1..]| && lines[1..][n] == later.value
                 && forall m :: n < m < |lines[1..]| ==> Classify(lines[1..][m]) != kind;
        assert lines[n + 1] == later.value;
      } else if Classify(lines[0]) == kind {
        assert lines[0] == LastOfKind(lines, kind).value;
      }
    }
  }

  /** A non-blank first line is the first header line; a later header line of
      the same kind overrides it. */
  lemma LastOfKindHeader(lines: seq<string>, kind: LineKind)
    requires lines != [] && lines[0] != ""
    ensures LastOfKind(HeaderLines(lines), kind)
         == if LastOfKind(HeaderLines(lines[1..]), kind).Some? then LastOfKind(HeaderLines(lines[1..]), kind)
            else if Classify(lines[0]) == kind then Some(lines[0]) else None
  {
    var h := [lines[0]] + HeaderLines(lines[1..]);
    assert HeaderLines(lines) == h;
    assert h[0] == lines[0];
    assert h[1..] == HeaderLines(lines[1..]);
  }

  /** What one non-blank header line does to the fields it can set. */
  lemma ScanHeaderFields(acc: Scan, line: string)
    requires acc.inHeader && line != ""
    requires ScanLine(acc, line).Ok?
    ensures var next := ScanLine(acc, line).value;
      && next.location == (if Classify(line) == LocationLine then Some(GetLocationFromLine(line).value) else acc.location)
      && next.groups == (if Classify(line) == GroupsLine then GetGroupsFromLine(line).value else acc.groups)
      && next.resources == (if Classify(line) == ResourcesLine then GetResourcesFromLine(line).value else acc.resources)
      && (Classify(line) == TimeLine ==> GetTimeFromLine(line).Ok?)
      && next.start == (if Classify(line) == TimeLine then Some(GetTimeFromLine(line).value.start) else acc.start)
      && next.end == (if Classify(line) == TimeLine then Some(GetTimeFromLine(line).value.end) else acc.end)
      && next.isTop == (if Classify(line) == TimeLine then GetTimeFromLine(line).value.isTop else acc.isTop)
  {
    ClassifiedLineIsRead(line);
  }

  /** The location, groups, resources and times of `r` are those of the LAST
      line of their kind in `header`, and those of `acc` when `header` has no
      line of that kind. */
  predicate FieldsFrom(acc: Scan, header: seq<string>, r: Scan) {
    && LocationFrom(acc, LastOfKind(header, LocationLine), r)
    && GroupsFrom(acc, LastOfKind(header, GroupsLine), r)
    && ResourcesFrom(acc, LastOfKind(header, ResourcesLine), r)
    && TimesFrom(acc, LastOfKind(header, TimeLine), r)
  }

  predicate LocationFrom(acc: Scan, last: Option<string>, r: Scan) {
    && (last.None? ==> r.location == acc.location)
    && (last.Some? ==> GetLocationFromLine(last.value).Ok? && r.location == Some(GetLocationFromLine(last.value).value))
  }

  predicate GroupsFrom(acc: Scan, last: Option<string>, r: Scan) {
    && (last.None? ==> r.groups == acc.groups)
    && (last.Some? ==> GetGroupsFromLine(last.value).Ok? && r.groups == GetGroupsFromLine(last.value).value)
  }

  predicate ResourcesFrom(acc: Scan, last: Option<string>, r: Scan) {
    && (last.None? ==> r.resources == acc.resources)
    && (last.Some? ==> GetResourcesFromLine(last.value).Ok? && r.resources == GetResourcesFromLine(last.value).value)
  }

  predicate TimesFrom(acc: Scan, last: Option<string>, r: Scan) {
    && (last.None? ==> r.start == acc.start && r.end == acc.end && r.isTop == acc.isTop)
    && (last.Some? ==> GetTimeFromLine(last.value).Ok?
                       && r.start == Some(GetTimeFromLine(last.value).value.start)
                       && r.end == Some(GetTimeFromLine(last.value).value.end)
                       && r.isTop == GetTimeFromLine(last.value).value.isTop)
  }

  /** The walk's partner for the remaining fields: the location, groups,
      resources and times come from the last header line of their kind, and
      keep their values from before the walk when the header has no line of
      that kind. Lines after the first blank line never set them. */
  lemma {:induction false} ScanFields(acc: Scan, lines: seq<string>)
    requires acc.inHeader
    requires ScanLines(acc, lines).Ok?
    ensures FieldsFrom(acc, HeaderLines(lines), ScanLines(acc, lines).value)
    decreases |lines|
  {
    if lines == [] {
    } else if lines[0] == "" {
      var body := acc.(inHeader := false);
      assert ScanLines(acc, lines) == ScanLines(body, lines[1..]);
      var text := if acc.description == "" then [] else [acc.description];
      ScanBody(body, lines[1..], text);
    } else {
      var next := ScanLine(acc, lines[0]).value;
      assert ScanLines(acc, lines) == ScanLines(next, lines[1..]);
      ScanHeaderLine(acc, lines[0]);
      ScanFields(next, lines[1..]);
      ScanFieldsStep(acc, next, lines, ScanLines(acc, lines).value);
    }
  }

  /** The inductive step of `ScanFields` for a non-blank first line. */
  lemma ScanFieldsStep(acc: Scan, next: Scan, lines: seq<string>, r: Scan)
    requires acc.inHeader && lines != [] && lines[0] != ""
    requires ScanLine(acc, lines[0]) == Ok(next)
    requires FieldsFrom(next, HeaderLines(lines[1..]), r)
    ensures FieldsFrom(acc, HeaderLines(lines), r)
  {
    ScanHeaderFields(acc, lines[0]);
    LocationStep(acc, next, lines, r);
    GroupsStep(acc, next, lines, r);
    ResourcesStep(acc, next, lines, r);
    TimesStep(acc, next, lines, r);
  }

  lemma LocationStep(acc: Scan, next: Scan, lines: seq<string>, r: Scan)
    requires lines != [] && lines[0] != ""
    requires next.location == (if Classify(lines[0]) == LocationLine then Some(GetLocationFromLine(lines[0]).value) else acc.location)
    requires LocationFrom(next, LastOfKind(HeaderLines(lines[1..]), LocationLine), r)
    ensures LocationFrom(acc, LastOfKind(HeaderLines(lines), LocationLine), r)
  {
    LastOfKindHeader(lines, LocationLine);
  }

  lemma GroupsStep(acc: Scan, next: Scan, lines: seq<string>, r: Scan)
    requires lines != [] && lines[0] != ""
    requires next.groups == (if Classify(lines[0]) == GroupsLine then GetGroupsFromLine(lines[0]).value else acc.groups)
    requires GroupsFrom(next, LastOfKind(HeaderLines(lines[1..]), GroupsLine), r)
    ensures GroupsFrom(acc, LastOfKind(HeaderLines(lines), GroupsLine), r)
  {
    LastOfKindHeader(lines, GroupsLine);
  }

  lemma ResourcesStep(acc: Scan, next: Scan, lines: seq<string>, r: Scan)
    requires lines != [] && lines[0] != ""
    requires next.resources == (if Classify(lines[0]) == ResourcesLine then GetResourcesFromLine(lines[0]).value else acc.resources)
    requires ResourcesFrom(next, LastOfKind(HeaderLines(lines[1..]), ResourcesLine), r)
    ensures ResourcesFrom(acc, LastOfKind(HeaderLines(lines), ResourcesLine), r)
  {
    LastOfKindHeader(lines, ResourcesLine);
  }

  lemma TimesStep(acc: Scan, next: Scan, lines: seq<string>, r: Scan)
    requires lines != [] && lines[0] != ""
    requires Classify(lines[0]) == TimeLine ==> GetTimeFromLine(lines[0]).Ok?
    requires next.start == (if Classify(lines[0]) == TimeLine then Some(GetTimeFromLine(lines[0]).value.start) else acc.start)
    requires next.end == (if Classify(lines[0]) == TimeLine then Some(GetTimeFromLine(lines[0]).value.end) else acc.end)
    requires next.isTop == (if Classify(lines[0]) == TimeLine then GetTimeFromLine(lines[0]).value.isTop else acc.isTop)
    requires TimesFrom(next, LastOfKind(HeaderLines(lines[1..]), TimeLine), r)
    ensures TimesFrom(acc, LastOfKind(HeaderLines(lines), TimeLine), r)
  {
    LastOfKindHeader(lines, TimeLine);
  }

  /** The free-text header lines of a text whose first line is not blank. */
  lemma HeaderFreeText(lines: seq<string>)
    requires lines != [] && lines[0] != ""
    ensures FreeTextLines(HeaderLines(lines)) == FreeTextPart(lines[0]) + FreeTextLines(HeaderLines(lines[1..]))
  {
    var h := [lines[0]] + HeaderLines(lines[1..]);
    assert HeaderLines(lines) == h;
    assert h[0] == lines[0];
    assert h[1..] == HeaderLines(lines[1..]);
  }

  // ------------------------------------------------------ summary clean-up

  const TEACHERS_PREFIX: string := "Lærere: "
  const TEACHER_MARKER: string := "Lærer: "

  /** A teacher entry `Lærer: <name> (<initials>)` at `i`: the marker, then
      the first `(` after it at `open`, then the first `)` after that at
      `close`. */
  predicate TeacherEntry(s: string, i: nat, open: nat, close: nat) {
    && OccursAt(s, i, TEACHER_MARKER)
    && i + |TEACHER_MARKER| <= open < close < |s|
    && s[open] == '(' && s[close] == ')'
    && (forall k :: i + |TEACHER_MARKER| <= k < open ==> s[k] != '(')
    && (forall k :: open < k < close ==> s[k] != ')')
  }

  /** `Lærer: [^(]*\(([^)]*)\)` at `i`: the captured initials and the index
      after the match. `[^(]*` runs to the first `(`, `[^)]*` to the first `)`
      after it, so the pattern matches exactly when some `(` after the marker
      is followed by some `)`. */
  function TeacherAt(s: string, i: nat): (r: Option<(string, nat)>)
    ensures r.Some? ==> i < r.value.1 <= |s| && |r.value.0| < r.value.1 - i
    ensures r.Some? ==> OccursAt(s, i, TEACHER_MARKER)
  {
    if i > |s| || !OccursAt(s, i, TEACHER_MARKER) then None
    else match FindFrom(s, "(", i + |TEACHER_MARKER|)
      case None => None
      case Some(open) =>
        match FindFrom(s, ")", open + 1)
        case None => None
        case Some(close) => Some((s[open + 1..close], close + 1))
  }

  /** What `TeacherAt` reads is a teacher entry, and it misses only when no
      `(` after the marker is followed by a `)`. */
  lemma TeacherAtReads(s: string, i: nat)
    ensures TeacherAt(s, i).Some? ==> exists open: nat, close: nat ::
      TeacherEntry(s, i, open, close) && TeacherAt(s, i).value == (s[open + 1..close], close + 1)
    ensures TeacherAt(s, i).None? && OccursAt(s, i, TEACHER_MARKER) ==>
      forall open, close :: i + |TEACHER_MARKER| <= open < close < |s| ==> !(s[open] == '(' && s[close] == ')')
  {
    if TeacherAt(s, i).Some? {
      TeacherAtFound(s, i);
    } else if OccursAt(s, i, TEACHER_MARKER) {
      TeacherAtMissing(s, i);
    }
  }

  lemma TeacherAtFound(s: string, i: nat)
    requires TeacherAt(s, i).Some?
    ensures exists open: nat, close: nat ::
      TeacherEntry(s, i, open, close) && TeacherAt(s, i).value == (s[open + 1..close], close + 1)
  {
    var from := i + |TEACHER_MARKER|;
    FindCharFrom(s, '(', from);
    var open := FindFrom(s, "(", from).value;
    FindCharFrom(s, ')', open + 1);
    var close := FindFrom(s, ")", open + 1).value;
    assert TeacherAt(s, i).value == (s[open + 1..close], close + 1);
    assert TeacherEntry(s, i, open, close);
  }

  lemma TeacherAtMissing(s: string, i: nat)
    requires TeacherAt(s, i).None? && OccursAt(s, i, TEACHER_MARKER)
    ensures forall open, close :: i + |TEACHER_MARKER| <= open < close < |s| ==> !(s[open] == '(' && s[close] == ')')
  {
    var from := i + |TEACHER_MARKER|;
    FindCharFrom(s, '(', from);
    var open := FindFrom(s, "(", from);
    if open.Some? {
      FindCharFrom(s, ')', open.value + 1);
    }
  }

  /** `re.sub` of that pattern by its group, from index `from` on: every
      match, scanned left to right, shrinks to the text between its
      parentheses; the rest is copied. */
  function CompactTeachers(s: string, from: nat): (t: string)
    requires from <= |s|
    ensures |t| <= |s| - from
    decreases |s| - from
  {
    if from == |s| then ""
    else match TeacherAt(s, from)
      case Some((initials, next)) => initials + CompactTeachers(s, next)
      case None => [s[from]] + CompactTeachers(s, from + 1)
  }

  /** Text without a teacher marker is copied unchanged. */
  lemma {:induction false} CompactTeachersAbsent(s: string, from: nat)
    requires from <= |s|
    requires forall k :: from <= k < |s| ==> !OccursAt(s, k, TEACHER_MARKER)
    ensures CompactTeachers(s, from) == s[from..]
    decreases |s| - from
  {
    if from < |s| {
      CompactTeachersAbsent(s, from + 1);
      CompactTeachersCopies(s, from);
      assert s[from..] == [s[from]] + s[from + 1..];
    }
  }

  /** Text in which the pattern matches nowhere is copied unchanged, even
      where it holds `Lærer: `. */
  lemma {:induction false} CompactTeachersNoEntry(s: string, from: nat)
    requires from <= |s|
    requires forall k :: from <= k < |s| ==> TeacherAt(s, k).None?
    ensures CompactTeachers(s, from) == s[from..]
    decreases |s| - from
  {
    if from < |s| {
      CompactTeachersNoEntry(s, from + 1);
      assert TeacherAt(s, from).None?;
      assert s[from..] == [s[from]] + s[from + 1..];
    }
  }

  /** A marker with no `(` followed by a `)` after it is no entry: text in
      which no `(` is followed by a `)` is copied unchanged. */
  lemma CompactTeachersNoClose(s: string, from: nat)
    requires from <= |s|
    requires forall open, close :: from <= open < close < |s| ==> !(s[open] == '(' && s[close] == ')')
    ensures CompactTeachers(s, from) == s[from..]
  {
    forall k | from <= k < |s| ensures TeacherAt(s, k).None? {
      TeacherAtReads(s, k);
    }
    CompactTeachersNoEntry(s, from);
  }

  /** A character that starts no teacher marker is copied. */
  lemma CompactTeachersCopies(s: string, from: nat)
    requires from < |s| && !OccursAt(s, from, TEACHER_MARKER)
    ensures CompactTeachers(s, from) == [s[from]] + CompactTeachers(s, from + 1)
  {
    assert TeacherAt(s, from).None?;
  }

  /** Text before `to` without a teacher marker is copied as it is. */
  lemma {:induction false} CompactTeachersSkip(s: string, from: nat, to: nat)
    requires from <= to <= |s|
    requires forall k :: from <= k < to ==> !OccursAt(s, k, TEACHER_MARKER)
    ensures CompactTeachers(s, from) == s[from..to] + CompactTeachers(s, to)
    decreases |s| - from
  {
    if from < to {
      CompactTeachersSkip(s, from + 1, to);
      CompactTeachersSkipStep(s, from, to);
    } else {
      assert s[from..to] == [];
    }
  }

  lemma CompactTeachersSkipStep(s: string, from: nat, to: nat)
    requires from < to <= |s| && !OccursAt(s, from, TEACHER_MARKER)
    requires CompactTeachers(s, from + 1) == s[from + 1..to] + CompactTeachers(s, to)
    ensures CompactTeachers(s, from) == s[from..to] + CompactTeachers(s, to)
  {
    CompactTeachersCopies(s, from);
    assert s[from..to] == [s[from]] + s[from + 1..to];
  }

  /** Compacting from the start copies the marker-free text before `i` and
      replaces the teacher entry found at `i` by its initials. */
  lemma CompactTeachersAt(s: string, i: nat, initials: string, next: nat)
    requires i < |s|
    requires forall k :: 0 <= k < i ==> !OccursAt(s, k, TEACHER_MARKER)
    requires TeacherAt(s, i) == Some((initials, next))
    ensures next <= |s|
    ensures CompactTeachers(s, 0) == s[..i] + initials + CompactTeachers(s, next)
  {
    CompactTeachersSkip(s, 0, i);
    assert s[0..i] == s[..i];
    assert CompactTeachers(s, i) == initials + CompactTeachers(s, next);
  }

  /** With no marker after the entry either, the rest is copied too. */
  lemma CompactTeachersAround(s: string, i: nat, initials: string, next: nat)
    requires i < |s|
    requires forall k :: 0 <= k < i ==> !OccursAt(s, k, TEACHER_MARKER)
    requires TeacherAt(s, i) == Some((initials, next))
    requires forall k :: next <= k < |s| ==> !OccursAt(s, k, TEACHER_MARKER)
    ensures next <= |s|
    ensures CompactTeachers(s, 0) == s[..i] + initials + s[next..]
  {
    CompactTeachersAt(s, i, initials, next);
    CompactTeachersAbsent(s, next);
  }

  /** Where the pieces of `a + Lærer: + name + ( + initials + ) + b` stand. */
  lemma EntryLayout(a: string, name: string, initials: string, b: string)
    requires forall k :: 0 <= k < |name| ==> name[k] != '('
    requires forall k :: 0 <= k < |initials| ==> initials[k] != ')'
    ensures var s := a + TEACHER_MARKER + name + "(" + initials + ")" + b;
      var open := |a| + |TEACHER_MARKER| + |name|;
      var close := open + 1 + |initials|;
      && TeacherEntry(s, |a|, open, close)
      && s[..|a|] == a
      && s[open + 1..close] == initials
      && |s| - |b| == close + 1
  {
    var p1 := a + TEACHER_MARKER;
    var p2 := p1 + name;
    var p3 := p2 + "(";
    var p4 := p3 + initials;
    var p5 := p4 + ")";
    var s := p5 + b;
    var from, open, close := |p1|, |p2|, |p4|;
    assert s[..|p5|] == p5 && p5[..|p4|] == p4 && p4[..|p3|] == p3 && p3[..|p2|] == p2 && p2[..|p1|] == p1;
    assert s[..|a|] == a by {
      assert s[..|a|] == p1[..|a|];
    }
    assert OccursAt(s, |a|, TEACHER_MARKER) by {
      assert s[|a|..from] == p1[|a|..];
    }
    assert s[open] == '(' && s[close] == ')';
    forall k | from <= k < open ensures s[k] != '(' {
      assert s[k] == p2[k] == name[k - from];
    }
    forall k | open < k < close ensures s[k] != ')' {
      assert s[k] == p4[k] == initials[k - open - 1];
    }
    assert s[open + 1..close] == p4[|p3|..];
  }

  /** The entry at `i` is the one `TeacherAt` reads. */
  lemma TeacherEntryUnique(s: string, i: nat, open: nat, close: nat)
    requires TeacherEntry(s, i, open, close)
    ensures TeacherAt(s, i) == Some((s[open + 1..close], close + 1))
  {
    TeacherAtReads(s, i);
    var r := TeacherAt(s, i);
    var o: nat, c: nat :| TeacherEntry(s, i, o, c) && r.value == (s[o + 1..c], c + 1);
    assert o == open;
    assert c == close;
  }

  /** Every `Lærere: ` and every teacher marker absent. */
  predicate TeacherFree(summary: string) {
    forall k :: 0 <= k <= |summary| ==> !OccursAt(summary, k, TEACHERS_PREFIX) && !OccursAt(summary, k, TEACHER_MARKER)
  }

  lemma TeacherFreeKept(summary: string)
    ensures TeacherFree(summary) ==> CompactTeachers(ReplaceAll(summary, TEACHERS_PREFIX, ""), 0) == summary
  {
    if TeacherFree(summary) {
      ReplaceAllAbsent(summary, TEACHERS_PREFIX, "");
      CompactTeachersAbsent(summary, 0);
    }
  }

  /** Lines 299-300: drop every `Lærere: `, then shorten each
      `Lærer: <name> (<initials>)` to `<initials>`. A summary with neither
      comes back unchanged. */
  function CleanSummary(summary: string): (r: string)
    ensures |r| <= |summary|
    ensures TeacherFree(summary) ==> r == summary
  {
    TeacherFreeKept(summary);
    var s := ReplaceAll(summary, TEACHERS_PREFIX, "");
    CompactTeachers(s, 0)
  }

  /** A leading `Lærere: ` is dropped. */
  lemma CleanSummaryDropsTeachersPrefix(b: string)
    ensures CleanSummary(TEACHERS_PREFIX + b) == CleanSummary(b)
  {
    ReplaceAllSkipsPrefix("", TEACHERS_PREFIX, b);
    assert "" + TEACHERS_PREFIX + b == TEACHERS_PREFIX + b;
    assert ReplaceAll(TEACHERS_PREFIX + b, TEACHERS_PREFIX, "") == ReplaceAll(b, TEACHERS_PREFIX, "");
  }

  /** One teacher entry amid teacher-free text shrinks to its initials and
      nothing else changes. */
  lemma CleanSummaryEntry(s: string, i: nat, open: nat, close: nat)
    requires TeacherEntry(s, i, open, close)
    requires forall k :: 0 <= k <= |s| ==> !OccursAt(s, k, TEACHERS_PREFIX)
    requires forall k :: 0 <= k < i ==> !OccursAt(s, k, TEACHER_MARKER)
    requires forall k :: close < k < |s| ==> !OccursAt(s, k, TEACHER_MARKER)
    ensures CleanSummary(s) == s[..i] + s[open + 1..close] + s[close + 1..]
  {
    CleanSummaryNoPrefix(s);
    CompactTeachersEntry(s, i, open, close);
  }

  /** The same for the compacting step alone. */
  lemma CompactTeachersEntry(s: string, i: nat, open: nat, close: nat)
    requires TeacherEntry(s, i, open, close)
    requires forall k :: 0 <= k < i ==> !OccursAt(s, k, TEACHER_MARKER)
    requires forall k :: close < k < |s| ==> !OccursAt(s, k, TEACHER_MARKER)
    ensures CompactTeachers(s, 0) == s[..i] + s[open + 1..close] + s[close + 1..]
  {
    TeacherEntryUnique(s, i, open, close);
    assert forall k :: 0 <= k < i ==> !OccursAt(s, k, TEACHER_MARKER);
    CompactTeachersAround(s, i, s[open + 1..close], close + 1);
  }

  /** Without `Lærere: ` only the teacher entries are shortened. */
  lemma CleanSummaryNoPrefix(s: string)
    requires forall k :: 0 <= k <= |s| ==> !OccursAt(s, k, TEACHERS_PREFIX)
    ensures CleanSummary(s) == CompactTeachers(s, 0)
  {
    ReplaceAllAbsent(s, TEACHERS_PREFIX, "");
  }

  /** The same for a summary written out as `a`, the entry, and `b`. */
  lemma CleanSummaryEntryText(a: string, name: string, initials: string, b: string)
    requires var s := a + TEACHER_MARKER + name + "(" + initials + ")" + b;
      && (forall k :: 0 <= k <= |s| ==> !OccursAt(s, k, TEACHERS_PREFIX))
      && (forall k :: 0 <= k < |a| ==> !OccursAt(s, k, TEACHER_MARKER))
      && (forall k :: |s| - |b| <= k < |s| ==> !OccursAt(s, k, TEACHER_MARKER))
    requires forall k :: 0 <= k < |name| ==> name[k] != '('
    requires forall k :: 0 <= k < |initials| ==> initials[k] != ')'
    ensures CleanSummary(a + TEACHER_MARKER + name + "(" + initials + ")" + b) == a + initials + b
  {
    var s := a + TEACHER_MARKER + name + "(" + initials + ")" + b;
    var open := |a| + |TEACHER_MARKER| + |name|;
    var close := open + 1 + |initials|;
    EntryLayout(a, name, initials, b);
    assert s[close + 1..] == b;
    CleanSummaryEntryParts(s, |a|, open, close, a, initials, b);
  }

  /** `CleanSummaryEntry` with the three kept parts named. */
  lemma CleanSummaryEntryParts(s: string, i: nat, open: nat, close: nat, a: string, initials: string, b: string)
    requires TeacherEntry(s, i, open, close)
    requires forall k :: 0 <= k <= |s| ==> !OccursAt(s, k, TEACHERS_PREFIX)
    requires forall k :: 0 <= k < i ==> !OccursAt(s, k, TEACHER_MARKER)
    requires forall k :: close < k < |s| ==> !OccursAt(s, k, TEACHER_MARKER)
    requires s[..i] == a && s[open + 1..close] == initials && s[close + 1..] == b
    ensures CleanSummary(s) == a + initials + b
  {
    CleanSummaryEntry(s, i, open, close);
  }

  // ---------------------------------------------------------- composition

  const RESOURCES_PREFIX: string := "Ressoucer: "
  const ALL_GROUPS: string := "Alle"

  predicate EndsWith(s: string, suffix: string) {
    |suffix| <= |s| && s[|s| - |suffix|..] == suffix
  }

  /** The finished summary and description, before an empty description is
      turned into `None`. */
  datatype Texts = Texts(summary: string, description: string)

  /** The title goes into the description exactly when there are groups and
      none of them is `Alle`. */
  predicate TitleInDescription(groups: string) {
    groups != "" && !Contains(groups, ALL_GROUPS)
  }

  /** Lines 303-314, in their order: resources in front of the description,
      location after the summary, groups in front of the summary, and the
      event title either in front of the description (with a blank line) or
      in front of the summary. */
  function Compose(summary: string, description: string, eventTitle: string,
                   location: Option<string>, groups: string, resources: string): Texts
  {
    var description := WithResources(description, resources);
    var summary := if location.Some? && location.value != "" then AppendSection(location.value, summary) else summary;
    if groups != "" then
      var summary := PrependSection(groups, summary);
      if !Contains(groups, ALL_GROUPS) then Texts(summary, eventTitle + "\n\n" + description)
      else Texts(PrependSection(eventTitle, summary), description)
    else Texts(PrependSection(eventTitle, summary), description)
  }

  /** The sections in front of the summary proper: the title alone when there
      are no groups, the groups alone when the title went into the
      description, and the title then the groups otherwise. */
  function Lead(groups: string, eventTitle: string): seq<string> {
    if groups == "" then [eventTitle]
    else if TitleInDescription(groups) then [groups]
    else [eventTitle, groups]
  }

  /** The non-empty strings of `parts`, in order. */
  function NonEmpty(parts: seq<string>): (r: seq<string>)
    ensures AllNonEmpty(r)
    ensures forall x :: x in r <==> x in parts && x != ""
    decreases |parts|
  {
    if parts == [] then []
    else (if parts[0] != "" then [parts[0]] else []) + NonEmpty(parts[1..])
  }

  /** The location as text, `""` when there is none. */
  function LocationText(location: Option<string>): string {
    if location.Some? then location.value else ""
  }

  /** Composition as joins: the summary is the `SPACER`-join of the leading
      sections, the cleaned summary if not empty and the location if not
      empty; the description is the title block, if any, then the
      resources block, if any, then what was written under the blank line. */
  lemma ComposeTexts(summary: string, description: string, eventTitle: string,
                     location: Option<string>, groups: string, resources: string)
    ensures var r := Compose(summary, description, eventTitle, location, groups, resources);
      && r.summary == JoinWith(SPACER, Lead(groups, eventTitle) + NonEmpty([summary, LocationText(location)]))
      && r.description == (if TitleInDescription(groups) then eventTitle + "\n\n" else "") + WithResources(description, resources)
  {
    var loc := LocationText(location);
    var parts := NonEmpty([summary, loc]);
    var s := if location.Some? && location.value != "" then AppendSection(location.value, summary) else summary;
    ComposeBody(summary, loc);
    assert s == JoinWith(SPACER, parts);
    PrependSectionJoins(parts, groups);
    PrependSectionJoins(parts, eventTitle);
    if groups != "" {
      PrependSectionJoins([groups] + parts, eventTitle);
      assert [eventTitle, groups] + parts == [eventTitle] + ([groups] + parts);
    }
  }

  /** The summary and the location, each if not empty, joined. */
  lemma ComposeBody(summary: string, loc: string)
    ensures AppendSection(loc, summary) == JoinWith(SPACER, NonEmpty([summary, loc])) || loc == ""
    ensures summary == JoinWith(SPACER, NonEmpty([summary, loc])) || loc != ""
  {
    assert [summary, loc][1..] == [loc];
    assert [loc][1..] == [];
    assert NonEmpty([loc]) == if loc != "" then [loc] else [];
    var parts := NonEmpty([summary, loc]);
    if summary != "" {
      assert parts == [summary] + NonEmpty([loc]);
      if loc != "" {
        assert parts == [summary, loc];
        assert parts[1..] == [loc];
      }
    } else {
      assert parts == NonEmpty([loc]);
    }
  }

  /** Putting one more section in front of a `SPACER`-joined summary joins
      it too. */
  lemma PrependSectionJoins(parts: seq<string>, x: string)
    requires AllNonEmpty(parts)
    ensures PrependSection(x, JoinWith(SPACER, parts)) == JoinWith(SPACER, [x] + parts)
  {
    JoinWithNonEmpty(SPACER, parts);
    assert ([x] + parts)[1..] == parts;
  }

  /** Line 304. */
  function WithResources(description: string, resources: string): string {
    if resources != "" then RESOURCES_PREFIX + resources + "\n\n" + description else description
  }

  lemma StartsWithConcat(a: string, b: string)
    ensures OccursAt(a + b, 0, a)
  {
    assert (a + b)[0..|a|] == a;
  }

  lemma EndsWithConcat(a: string, b: string)
    ensures EndsWith(a + b, b)
  {
    assert (a + b)[|a + b| - |b|..] == b;
  }

  /** Where the event title lands: before the description, behind a blank
      line, when there are groups none of which is `Alle` (and then the
      summary starts with the groups); before the summary otherwise. */
  lemma ComposePlacesTitle(summary: string, description: string, eventTitle: string,
                           location: Option<string>, groups: string, resources: string)
    ensures var r := Compose(summary, description, eventTitle, location, groups, resources);
      && (TitleInDescription(groups) ==> OccursAt(r.summary, 0, groups))
      && (TitleInDescription(groups) ==> OccursAt(r.description, 0, eventTitle + "\n\n"))
      && (!TitleInDescription(groups) ==> OccursAt(r.summary, 0, eventTitle))
  {
    var d := WithResources(description, resources);
    var s := if location.Some? && location.value != "" then AppendSection(location.value, summary) else summary;
    if groups != "" && !Contains(groups, ALL_GROUPS) {
      StartsWithConcat(groups, (if s != "" then SPACER else "") + s);
      assert PrependSection(groups, s) == groups + ((if s != "" then SPACER else "") + s);
      StartsWithConcat(eventTitle + "\n\n", d);
    } else {
      var s' := if groups != "" then PrependSection(groups, s) else s;
      StartsWithConcat(eventTitle, (if s' != "" then SPACER else "") + s');
      assert PrependSection(eventTitle, s') == eventTitle + ((if s' != "" then SPACER else "") + s');
    }
  }

  /** The description keeps what was written under the blank line at its end,
      with the resources block right before it. */
  lemma ComposeKeepsDescription(summary: string, description: string, eventTitle: string,
                                location: Option<string>, groups: string, resources: string)
    ensures var r := Compose(summary, description, eventTitle, location, groups, resources);
      && EndsWith(r.description, description)
      && (resources != "" ==> EndsWith(r.description, RESOURCES_PREFIX + resources + "\n\n" + description))
  {
    var r := Compose(summary, description, eventTitle, location, groups, resources);
    var block := if resources != "" then RESOURCES_PREFIX + resources + "\n\n" else "";
    var head := if TitleInDescription(groups) then eventTitle + "\n\n" else "";
    assert WithResources(description, resources) == block + description;
    assert r.description == head + (block + description);
    assert r.description == (head + block) + description;
    EndsWithConcat(head + block, description);
    EndsWithConcat(head, block + description);
  }

  /** The summary ends with the location when there is one. */
  lemma ComposeKeepsLocation(summary: string, description: string, eventTitle: string,
                             location: Option<string>, groups: string, resources: string)
    requires location.Some? && location.value != ""
    ensures EndsWith(Compose(summary, description, eventTitle, location, groups, resources).summary, location.value)
  {
    var r := Compose(summary, description, eventTitle, location, groups, resources);
    var s := AppendSection(location.value, summary);
    var sep := if summary != "" then SPACER else "";
    assert s == (summary + sep) + location.value;
    var front := if !TitleInDescription(groups) then eventTitle + SPACER else "";
    var g := if groups != "" then groups + SPACER else "";
    assert r.summary == (front + g) + s;
    assert r.summary == ((front + g) + (summary + sep)) + location.value;
    EndsWithConcat((front + g) + (summary + sep), location.value);
  }

  /** The composed description is empty exactly when nothing was written
      under the blank line, there are no resources and the title went into
      the summary. */
  lemma ComposeEmptyDescription(summary: string, description: string, eventTitle: string,
                                location: Option<string>, groups: string, resources: string)
    ensures Compose(summary, description, eventTitle, location, groups, resources).description == ""
        <==> description == "" && resources == "" && !TitleInDescription(groups)
  {
  }

  /** Lines 316-317: an empty description is stored as `None`. */
  function NormalizeDescription(description: string): Option<string> {
    if description == "" then None else Some(description)
  }

  // ------------------------------------------------------ status and title

  /** What lines 268-277 find before the loop: the status, the event title
      and how many lines they take up. */
  datatype Preamble = Preamble(status: Option<Status>, eventTitle: string, offset: nat)

  /** The title is the line at hand unless it is a time line. */
  function Titled(status: Option<Status>, line: string, offset: nat): Preamble {
    if IsTimeLine(line) then Preamble(status, "", offset) else Preamble(status, line, offset + 1)
  }

  /** Lines 268-277. Only a text of two or more lines is looked at; a first
      line holding a marker must be exactly that marker, and the title is the
      next line not a time line. */
  function ReadPreamble(lines: seq<string>): (r: Result<Preamble, Error>)
    ensures |lines| < 2 ==> r == Ok(Preamble(None, "", 0))
    ensures r.Err? <==> |lines| >= 2 && IsStatusLine(lines[0])
                        && lines[0] != CHANGED_MARKER && lines[0] != CANCELLED_MARKER
    ensures r.Err? ==> r.error == InvalidStatus(lines[0])
    ensures r.Ok? ==> r.value.offset <= |lines| && r.value.offset <= 2
    ensures r.Ok? ==> (r.value.status == Some(Changed) <==> |lines| >= 2 && lines[0] == CHANGED_MARKER)
    ensures r.Ok? ==> (r.value.status == Some(Cancelled) <==> |lines| >= 2 && lines[0] == CANCELLED_MARKER)
    ensures r.Ok? && r.value.offset > 0 && r.value.eventTitle != "" ==>
      r.value.eventTitle == lines[r.value.offset - 1] && !IsTimeLine(r.value.eventTitle)
    ensures r.Ok? && |lines| >= 2 ==>
      var k := if r.value.status.Some? then 1 else 0;
      && (IsTimeLine(lines[k]) ==> r.value.eventTitle == "" && r.value.offset == k)
      && (!IsTimeLine(lines[k]) ==> r.value.eventTitle == lines[k] && r.value.offset == k + 1)
  {
    if |lines| < 2 then Ok(Preamble(None, "", 0))
    else if IsStatusLine(lines[0]) then
      var status :- GetStatusFromLine(lines[0]);
      Ok(Titled(Some(status), lines[1], 1))
    else
      assert lines[0] != CHANGED_MARKER && lines[0] != CANCELLED_MARKER by {
        MarkersAreStatusLines();
      }
      Ok(Titled(None, lines[0], 0))
  }

  // ----------------------------------------------------------- the whole

  /** The tuple `_extract_lesson_info` returns. */
  datatype LessonInfo = LessonInfo(summary: string, status: Option<Status>,
                                   start: Option<When>, end: Option<When>,
                                   location: Option<string>, description: Option<string>,
                                   isTop: bool)

  /** `_extract_lesson_info`. */
  function ExtractLessonInfo(text: string): (r: Result<LessonInfo, Error>)
    ensures r.Err? ==> Reachable(r.error)
    ensures r.Ok? ==> r.value.description != Some("")
    ensures r.Ok? ==> TimesAgree(r.value.isTop, r.value.start, r.value.end)
    ensures |SplitLines(text)| < 2 && r.Ok? ==> r.value.status.None?
    ensures r.Ok? && r.value.status == Some(Cancelled) ==> SplitLines(text)[0] == CANCELLED_MARKER
    ensures r.Ok? && r.value.status == Some(Changed) ==> SplitLines(text)[0] == CHANGED_MARKER
    ensures var lines := SplitLines(text);
      r.Ok? <==> ReadPreamble(lines).Ok? && TimesReadable(HeaderLines(lines[ReadPreamble(lines).value.offset..]))
  {
    var lines := SplitLines(text);
    var pre :- ReadPreamble(lines);
    ScanLinesOk(START_SCAN, lines[pre.offset..]);
    var scan :- ScanLines(START_SCAN, lines[pre.offset..]);
    var texts := Compose(CleanSummary(scan.summary), scan.description, pre.eventTitle,
                         scan.location, scan.groups, scan.resources);
    Ok(LessonInfo(texts.summary, pre.status, scan.start, scan.end, scan.location,
                  NormalizeDescription(texts.description), scan.isTop))
  }

  /** The whole extraction in terms of the lines: the summary joins the
      leading sections, the cleaned free-text lines of the header and the
      location; the description is the title block, the resources block and
      the lines under the first blank line; the other fields come from the
      last header line of their kind. */
  lemma ExtractLessonInfoTexts(text: string)
    requires ExtractLessonInfo(text).Ok?
    ensures var lines := SplitLines(text);
      var pre := ReadPreamble(lines).value;
      var rest := lines[pre.offset..];
      var scan := ScanLines(START_SCAN, rest).value;
      var info := ExtractLessonInfo(text).value;
      && FieldsFrom(START_SCAN, HeaderLines(rest), scan)
      && info.summary == JoinWith(SPACER, Lead(scan.groups, pre.eventTitle)
                                   + NonEmpty([CleanSummary(JoinWith(SPACER, FreeTextLines(HeaderLines(rest)))),
                                               LocationText(scan.location)]))
      && info.description == NormalizeDescription(
           (if TitleInDescription(scan.groups) then pre.eventTitle + "\n\n" else "")
           + WithResources(JoinWith("\n", DropLeadingBlanks(BodyLines(rest))), scan.resources))
      && info.status == pre.status && info.location == scan.location
      && info.start == scan.start && info.end == scan.end && info.isTop == scan.isTop
  {
    var lines := SplitLines(text);
    var pre := ReadPreamble(lines).value;
    var rest := lines[pre.offset..];
    var scan := ScanLines(START_SCAN, rest).value;
    ScanJoins(START_SCAN, rest, []);
    assert [] + FreeTextLines(HeaderLines(rest)) == FreeTextLines(HeaderLines(rest));
    ScanFields(START_SCAN, rest);
    ComposeTexts(CleanSummary(scan.summary), scan.description, pre.eventTitle,
                 scan.location, scan.groups, scan.resources);
  }
}

=== FILE: linekinds.dfy ===
/** The line classifiers and the extractors paired with them,
    `lectocal/lectio.py:131-177`, and the order in which `_extract_lesson_info`
    tries them (lines 285-294). */
module LineKinds {
  import opened Wrappers
  import opened Errors
  import opened Patterns
  import opened TimeLines

  /** The values of `LESSON_STATUS` a status line can give. */
  datatype Status = Changed | Cancelled

  const CHANGED_MARKER: string := "Ændret!"
  const CANCELLED_MARKER: string := "Aflyst!"

  /** `_is_status_line`: a marker occurs anywhere in the line. */
  predicate IsStatusLine(line: string) {
    Contains(line, CHANGED_MARKER) || Contains(line, CANCELLED_MARKER)
  }

  /** `_get_status_from_line`: a dictionary lookup, so only a line that is
      exactly a marker has a status; every other line raises. */
  function GetStatusFromLine(line: string): (r: Result<Status, Error>)
    ensures r == Ok(Changed) <==> line == CHANGED_MARKER
    ensures r == Ok(Cancelled) <==> line == CANCELLED_MARKER
    ensures r.Err? ==> r.error == InvalidStatus(line)
  {
    if line == CHANGED_MARKER then Ok(Changed)
    else if line == CANCELLED_MARKER then Ok(Cancelled)
    else Err(InvalidStatus(line))
  }

  /** A line that is a marker is also accepted as a status line, so the
      lookup is reached for both markers. */
  lemma MarkersAreStatusLines()
    ensures IsStatusLine(CHANGED_MARKER) && IsStatusLine(CANCELLED_MARKER)
    ensures GetStatusFromLine(CHANGED_MARKER) == Ok(Changed)
    ensures GetStatusFromLine(CANCELLED_MARKER) == Ok(Cancelled)
  {
    ContainsAt(CHANGED_MARKER, CHANGED_MARKER, 0);
    ContainsAt(CANCELLED_MARKER, CANCELLED_MARKER, 0);
  }

  // -------------------------------------------------------------- location

  /** `Lokaler?: ` at `i` (the greedy `r?` tries `Lokaler: ` first): the
      index just after the marker. */
  function LocationMarkerAt(s: string, i: nat): (r: Option<nat>)
    ensures r.Some? ==> r.value <= |s|
  {
    if OccursAt(s, i, "Lokaler: ") then Some(i + 9)
    else if OccursAt(s, i, "Lokale: ") then Some(i + 8)
    else None
  }

  function LocationMarkerMatcher(): (string, nat) -> Option<nat> {
    (s: string, i: nat) => LocationMarkerAt(s, i)
  }

  /** `Lokaler?: (.*)` at `i`: what the group captures. */
  function LocationCaptureMatcher(): (string, nat) -> Option<string> {
    (s: string, i: nat) =>
      match LocationMarkerAt(s, i)
      case None => None
      case Some(j) => Some(RestOfLine(s, j))
  }

  /** `_is_location_line`. */
  predicate IsLocationLine(line: string) {
    SearchFrom(LocationMarkerMatcher(), line, 0).Some?
  }

  /** `_get_location_from_line`: the text after the leftmost location marker,
      up to a newline; it fails only when no marker occurs. */
  function GetLocationFromLine(line: string): (r: Result<string, Error>)
    ensures r.Err? <==> forall i :: 0 <= i <= |line| ==> LocationMarkerAt(line, i).None?
    ensures r.Err? ==> r.error == InvalidLocation(line)
    ensures r.Ok? ==> exists i :: 0 <= i <= |line| && LocationAfterFirstMarker(line, i, r.value)
  {
    var m := LocationCaptureMatcher();
    assert forall i :: m(line, i).Some? <==> LocationMarkerAt(line, i).Some?;
    match SearchFrom(m, line, 0)
    case None => Err(InvalidLocation(line))
    case Some((i, loc)) =>
      assert LocationAfterFirstMarker(line, i, loc);
      Ok(loc)
  }

  /** `loc` is what follows the marker at `i`, and no marker starts before `i`. */
  predicate LocationAfterFirstMarker(line: string, i: nat, loc: string)
    requires i <= |line|
  {
    && LocationMarkerAt(line, i).Some?
    && loc == RestOfLine(line, LocationMarkerAt(line, i).value)
    && forall k :: 0 <= k < i ==> LocationMarkerAt(line, k).None?
  }

  /** Whatever `_is_location_line` accepts, `_get_location_from_line` reads:
      `InvalidLocationError` cannot follow a positive classification. */
  lemma LocationLineIsRead(line: string)
    requires IsLocationLine(line)
    ensures GetLocationFromLine(line).Ok?
  {
    var i := SearchFrom(LocationMarkerMatcher(), line, 0).value.0;
    assert LocationMarkerMatcher()(line, i).Some?;
  }

  // ---------------------------------------------------- groups and resources

  const GROUPS_MARKER: string := "Hold: "
  const RESOURCES_MARKER: string := "Ressourcer: "

  /** `<marker>(.*)` at `i`: what the group captures. */
  function CaptureAfter(marker: string): (string, nat) -> Option<string> {
    (s: string, i: nat) => if OccursAt(s, i, marker) then Some(RestOfLine(s, i + |marker|)) else None
  }

  /** `_is_groups_line`. */
  predicate IsGroupsLine(line: string) {
    OccursAt(line, 0, GROUPS_MARKER)
  }

  /** `_get_groups_from_line`: searches the marker anywhere in the line. */
  function GetGroupsFromLine(line: string): (r: Result<string, Error>)
    ensures r.Err? <==> forall i :: 0 <= i <= |line| ==> !OccursAt(line, i, GROUPS_MARKER)
    ensures r.Err? ==> r.error == InvalidGroups(line)
    ensures IsGroupsLine(line) ==> r == Ok(RestOfLine(line, |GROUPS_MARKER|))
  {
    var m := CaptureAfter(GROUPS_MARKER);
    assert forall i :: m(line, i).Some? <==> OccursAt(line, i, GROUPS_MARKER);
    match SearchFrom(m, line, 0)
    case None => Err(InvalidGroups(line))
    case Some((_, groups)) =>
      assert IsGroupsLine(line) ==> m(line, 0).Some?;
      Ok(groups)
  }

  /** `_is_ressources_line`. */
  predicate IsResourcesLine(line: string) {
    OccursAt(line, 0, RESOURCES_MARKER)
  }

  /** `_get_ressources_from_line`: searches the marker anywhere in the line. */
  function GetResourcesFromLine(line: string): (r: Result<string, Error>)
    ensures r.Err? <==> forall i :: 0 <= i <= |line| ==> !OccursAt(line, i, RESOURCES_MARKER)
    ensures r.Err? ==> r.error == InvalidRessources(line)
    ensures IsResourcesLine(line) ==> r == Ok(RestOfLine(line, |RESOURCES_MARKER|))
  {
    var m := CaptureAfter(RESOURCES_MARKER);
    assert forall i :: m(line, i).Some? <==> OccursAt(line, i, RESOURCES_MARKER);
    match SearchFrom(m, line, 0)
    case None => Err(InvalidRessources(line))
    case Some((_, resources)) =>
      assert IsResourcesLine(line) ==> m(line, 0).Some?;
      Ok(resources)
  }

  // --------------------------------------------------------- classification

  /** The categories of a header line other than a blank one. */
  datatype LineKind = TimeLine | LocationLine | GroupsLine | ResourcesLine | FreeText

  /** The `elif` chain of lines 285-294: the first classifier that accepts wins. */
  function Classify(line: string): LineKind {
    if IsTimeLine(line) then TimeLine
    else if IsLocationLine(line) then LocationLine
    else if IsGroupsLine(line) then GroupsLine
    else if IsResourcesLine(line) then ResourcesLine
    else FreeText
  }

  /** A classified line is read without error, except that a time line may
      carry a date or clock that does not exist. */
  lemma ClassifiedLineIsRead(line: string)
    ensures Classify(line) == TimeLine ==>
      GetTimeFromLine(line).Ok? || GetTimeFromLine(line).error == InvalidDateTimeValue
    ensures Classify(line) == LocationLine ==> GetLocationFromLine(line).Ok?
    ensures Classify(line) == GroupsLine ==> GetGroupsFromLine(line).Ok?
    ensures Classify(line) == ResourcesLine ==> GetResourcesFromLine(line).Ok?
  {
    if IsTimeLine(line) {
      TimeLineHasFields(line);
    } else if IsLocationLine(line) {
      LocationLineIsRead(line);
    }
  }
}

=== FILE: links.dfy ===
/** A tile's link, `lectocal/lectio.py:119-128`: the lesson id it carries and
    the absolute address it is stored under. */
module Links {
  import opened Wrappers
  import opened Patterns

  const BASE_URL: string := "https://www.lectio.dk"
  const PREVURL: string := "&prevurl="

  /** The query parameters that carry an id, in the order the alternation
      tries them. */
  const ID_KEYS: seq<string> := ["absid", "ProeveholdId", "outboundCensorID", "aftaleid"]

  /** `\d+` taken greedily from index `j`: the longest run of digits there. */
  function DigitRun(s: string, j: nat): (r: string)
    requires j <= |s|
    ensures j + |r| <= |s| && r == s[j..j + |r|]
    ensures AllDigits(r)
    ensures j + |r| == |s| || !IsDigit(s[j + |r|])
    decreases |s| - j
  {
    if j < |s| && IsDigit(s[j]) then [s[j]] + DigitRun(s, j + 1) else ""
  }

  /** `(?:k1|k2|...)=(\d+)` at `i` for the keys `keys`: the first key that is
      followed by `=` and at least one digit, and the digits. */
  function KeyedIdAt(s: string, i: nat, keys: seq<string>): (r: Option<string>)
    ensures r.Some? ==> r.value != "" && AllDigits(r.value)
    ensures r.Some? ==> exists n :: 0 <= n < |keys| && IdAfterKey(s, i, keys[n], r.value)
    ensures r.None? ==> forall n :: 0 <= n < |keys| ==> !(OccursAt(s, i, keys[n] + "=") && DigitAt(s, i + |keys[n]| + 1))
    decreases |keys|
  {
    if keys == [] then None
    else if OccursAt(s, i, keys[0] + "=") && DigitAt(s, i + |keys[0]| + 1) then
      var id := DigitRun(s, i + |keys[0]| + 1);
      assert IdAfterKey(s, i, keys[0], id);
      Some(id)
    else
      var r := KeyedIdAt(s, i, keys[1..]);
      assert forall n :: 1 <= n < |keys| ==> keys[n] == keys[1..][n - 1];
      r
  }

  /** `key=` starts at `i` and `id` is the whole digit run after it. */
  predicate IdAfterKey(s: string, i: nat, key: string, id: string) {
    && OccursAt(s, i, key + "=")
    && i + |key| + 1 <= |s|
    && id == DigitRun(s, i + |key| + 1)
  }

  function IdAt(s: string, i: nat): Option<string> {
    KeyedIdAt(s, i, ID_KEYS)
  }

  function IdMatcher(): (string, nat) -> Option<string> {
    (s: string, i: nat) => IdAt(s, i)
  }

  /** `_get_id_from_link`: the digits after the leftmost id parameter that is
      followed by at least one digit; `None` when there is none, which is not
      an error. */
  function GetIdFromLink(link: string): (id: Option<string>)
    ensures id.Some? ==> id.value != "" && AllDigits(id.value)
    ensures id.None? <==> forall i :: 0 <= i <= |link| ==> IdAt(link, i).None?
    ensures id.Some? ==> exists i :: 0 <= i <= |link| && IdAt(link, i) == id
                                     && forall k :: 0 <= k < i ==> IdAt(link, k).None?
  {
    var m := IdMatcher();
    assert forall i :: m(link, i) == IdAt(link, i);
    match SearchFrom(m, link, 0)
    case Some((i, id)) => Some(id)
    case None => None
  }

  /** `_get_complete_link`: the site's origin followed by the link cut before
      its first `&prevurl=`. */
  function GetCompleteLink(link: string): (r: string)
    ensures OccursAt(r, 0, BASE_URL)
    ensures var kept := r[|BASE_URL|..];
      && OccursAt(link, 0, kept)
      && (kept == link || OccursAt(link, |kept|, PREVURL))
      && forall k :: 0 <= k <= |kept| ==> !OccursAt(kept, k, PREVURL)
  {
    var kept := match FindFrom(link, PREVURL, 0)
      case Some(i) => link[..i]
      case None => link;
    forall k | 0 <= k <= |kept|
      ensures !OccursAt(kept, k, PREVURL)
    {
      if k + |PREVURL| <= |kept| {
        assert !OccursAt(link, k, PREVURL);
        assert kept[k..k + |PREVURL|] == link[k..k + |PREVURL|];
      }
    }
    assert (BASE_URL + kept)[..|BASE_URL|] == BASE_URL;
    assert (BASE_URL + kept)[|BASE_URL|..] == kept;
    BASE_URL + kept
  }
}

=== FILE: patterns.dfy ===
/** Building blocks for the regular expressions of `lectocal/lectio.py`.

    A pattern is modelled as an ANCHORED matcher: a function of a string and a
    start index that returns what the pattern captures when it matches there.
    Python's `re.search` tries the start indices from left to right and keeps
    the first that matches; `SearchFrom` is exactly that scan. */
module Patterns {
  import opened Wrappers

  predicate IsDigit(c: char) {
    '0' <= c <= '9'
  }

  predicate DigitAt(s: string, i: nat) {
    i < |s| && IsDigit(s[i])
  }

  predicate CharAt(s: string, i: nat, c: char) {
    i < |s| && s[i] == c
  }

  function DigitValue(c: char): (v: nat)
    requires IsDigit(c)
    ensures v <= 9
  {
    c as int - '0' as int
  }

  predicate AllDigits(s: string) {
    forall k :: 0 <= k < |s| ==> IsDigit(s[k])
  }

  /** The decimal value of a string of digits, most significant first. */
  function NumberValue(digits: string): nat
    requires AllDigits(digits)
    decreases |digits|
  {
    if digits == [] then 0
    else 10 * NumberValue(digits[..|digits| - 1]) + DigitValue(digits[|digits| - 1])
  }

  /** Reading the digits `s[i..j]` is reading `s[i..j - 1]` and then one more digit. */
  lemma NumberValueSnoc(s: string, i: nat, j: nat)
    requires i < j <= |s| && AllDigits(s[i..j])
    ensures AllDigits(s[i..j - 1])
    ensures NumberValue(s[i..j]) == 10 * NumberValue(s[i..j - 1]) + DigitValue(s[j - 1])
  {
    assert s[i..j][..j - i - 1] == s[i..j - 1];
    assert forall k :: 0 <= k < j - 1 - i ==> s[i..j - 1][k] == s[i..j][k];
  }

  /** `p` occurs in `s` starting at index `i`. */
  predicate OccursAt(s: string, i: nat, p: string) {
    i + |p| <= |s| && s[i..i + |p|] == p
  }

  /** `re.search` from index `from`: the leftmost index at which `m` matches,
      with what it captured there. */
  function SearchFrom<T>(m: (string, nat) -> Option<T>, s: string, from: nat): (r: Option<(nat, T)>)
    requires from <= |s|
    ensures r.Some? ==> from <= r.value.0 <= |s| && m(s, r.value.0) == Some(r.value.1)
    ensures r.Some? ==> forall k :: from <= k < r.value.0 ==> m(s, k).None?
    ensures r.None? ==> forall k :: from <= k <= |s| ==> m(s, k).None?
    decreases |s| - from
  {
    match m(s, from)
    case Some(v) => Some((from, v))
    case None => if from == |s| then None else SearchFrom(m, s, from + 1)
  }

  /** The anchored matcher of a literal string. */
  function Literal(p: string): (string, nat) -> Option<()> {
    (s: string, i: nat) => if OccursAt(s, i, p) then Some(()) else None
  }

  /** `str.find(p, from)`, with `None` for -1. */
  function FindFrom(s: string, p: string, from: nat): (r: Option<nat>)
    requires from <= |s|
    ensures r.Some? ==> from <= r.value <= |s| && OccursAt(s, r.value, p)
    ensures r.Some? ==> forall k :: from <= k < r.value ==> !OccursAt(s, k, p)
    ensures r.None? ==> forall k :: from <= k <= |s| ==> !OccursAt(s, k, p)
  {
    var lit := Literal(p);
    assert forall k :: lit(s, k).None? <==> !OccursAt(s, k, p);
    match SearchFrom(lit, s, from)
    case Some((k, _)) => Some(k)
    case None => None
  }

  /** A one-character pattern occurs exactly where that character stands. */
  lemma OccursAtChar(s: string, i: nat, c: char)
    ensures OccursAt(s, i, [c]) <==> CharAt(s, i, c)
  {
    if i < |s| {
      assert s[i..i + 1] == [s[i]];
    }
  }

  /** `str.find` of a single character, read character by character. */
  lemma FindCharFrom(s: string, c: char, from: nat)
    requires from <= |s|
    ensures FindFrom(s, [c], from).Some? ==>
      var at := FindFrom(s, [c], from).value;
      at < |s| && s[at] == c && forall k :: from <= k < at ==> s[k] != c
    ensures FindFrom(s, [c], from).None? ==> forall k :: from <= k < |s| ==> s[k] != c
  {
    var r := FindFrom(s, [c], from);
    var end := if r.Some? then r.value else |s|;
    forall k | from <= k < end
      ensures s[k] != c
    {
      OccursAtChar(s, k, c);
    }
    if r.Some? {
      OccursAtChar(s, r.value, c);
    }
  }

  /** `p in s`, equivalently `s.find(p) != -1`. */
  predicate Contains(s: string, p: string) {
    FindFrom(s, p, 0).Some?
  }

  lemma ContainsAt(s: string, p: string, i: nat)
    requires OccursAt(s, i, p)
    ensures Contains(s, p)
  {
  }

  /** What `.*` captures from index `i`: everything up to the next newline. */
  function RestOfLine(s: string, i: nat): (r: string)
    requires i <= |s|
    ensures i + |r| <= |s| && r == s[i..i + |r|]
    ensures forall k :: 0 <= k < |r| ==> r[k] != '\n'
    ensures i + |r| == |s| || s[i + |r|] == '\n'
  {
    match FindFrom(s, "\n", i)
    case Some(k) =>
      assert forall j :: i <= j < k ==> s[j] != '\n' by {
        forall j | i <= j < k ensures s[j] != '\n' {
          assert !OccursAt(s, j, "\n");
          assert s[j..j + 1] == [s[j]];
        }
      }
      s[i..k]
    case None =>
      assert forall j :: i <= j < |s| ==> s[j] != '\n' by {
        forall j | i <= j < |s| ensures s[j] != '\n' {
          assert !OccursAt(s, j, "\n");
          assert s[j..j + 1] == [s[j]];
        }
      }
      s[i..]
  }

  /** On a string without newlines `.*` takes the whole remainder. */
  lemma RestOfLineWithoutNewline(s: string, i: nat)
    requires i <= |s|
    requires forall k :: 0 <= k < |s| ==> s[k] != '\n'
    ensures RestOfLine(s, i) == s[i..]
  {
  }
}

=== FILE: scenarios.dfy ===
/** Worked examples of the extraction, computed from the model. */
module Scenarios {
  import opened Wrappers
  import opened Patterns
  import opened TimeLines
  import opened Strings
  import opened LineKinds
  import opened Extraction
  import opened Links
  import opened Dedup
  import opened Schedule

  const SPAN_LINE: string := "8/4-2016 17:30 til 9/4-2016 01:00"

  lemma SpanStartDateDay()
    ensures NumberThen(SPAN_LINE, 0, '/') == Some((8, 2))
  {
  }

  lemma SpanStartDateMonth()
    ensures NumberThen(SPAN_LINE, 2, '-') == Some((4, 4))
  {
  }

  lemma SpanStartDateYear()
    ensures FourDigitsAt(SPAN_LINE, 4) == Some((2016, 8))
  {
  }

  lemma SpanStartDate()
    ensures DateAt(SPAN_LINE, 0) == Some((Date(8, 4, 2016), 8))
  {
    SpanStartDateDay();
    SpanStartDateMonth();
    SpanStartDateYear();
  }

  lemma SpanEndDateDay()
    ensures NumberThen(SPAN_LINE, 19, '/') == Some((9, 21))
  {
  }

  lemma SpanEndDateMonth()
    ensures NumberThen(SPAN_LINE, 21, '-') == Some((4, 23))
  {
  }

  lemma SpanEndDateYear()
    ensures FourDigitsAt(SPAN_LINE, 23) == Some((2016, 27))
  {
  }

  lemma SpanEndDate()
    ensures DateAt(SPAN_LINE, 19) == Some((Date(9, 4, 2016), 27))
  {
    SpanEndDateDay();
    SpanEndDateMonth();
    SpanEndDateYear();
  }

  lemma SpanEnd()
    ensures EndAt(SPAN_LINE, 19) == Some((Some(Date(9, 4, 2016)), Clock(1, 0)))
  {
    SpanEndDate();
    assert ClockAt(SPAN_LINE, 28) == Some((Clock(1, 0), 33));
    assert SpacedClockAt(SPAN_LINE, 27) == Some(Clock(1, 0));
  }

  lemma SpanStartClock()
    ensures ClockAt(SPAN_LINE, 9) == Some((Clock(17, 30), 14))
  {
  }

  lemma SpanTil()
    ensures CharAt(SPAN_LINE, 8, ' ')
    ensures OccursAt(SPAN_LINE, 14, " til ")
  {
    assert SPAN_LINE[14..19] == " til ";
  }

  lemma SpanRange()
    ensures RangeAt(SPAN_LINE, 8) == Some((Clock(17, 30), Some(Date(9, 4, 2016)), Clock(1, 0)))
  {
    SpanEnd();
    SpanStartClock();
    SpanTil();
    RangeReadsRead(SPAN_LINE, 8, Clock(17, 30), Some(Date(9, 4, 2016)), Clock(1, 0));
  }

  lemma SpanLineFields()
    ensures TimeFieldsAt(SPAN_LINE, 0)
         == Some(TimeFields(Date(8, 4, 2016), Some(Clock(17, 30)), Some(Date(9, 4, 2016)), Some(Clock(1, 0))))
  {
    SpanStartDate();
    SpanRange();
  }

  /** A span over midnight: the end date is the one written after `til`. */
  lemma MultiDaySpan()
    ensures GetTimeFromLine(SPAN_LINE)
         == Ok(TimeRange(DateTime(Date(8, 4, 2016), Clock(17, 30)),
                         DateTime(Date(9, 4, 2016), Clock(1, 0)), false))
  {
    SpanLineFields();
    SpanStartDate();
    GetTimeFromLineReads(SPAN_LINE, 0);
    var f := TimeFields(Date(8, 4, 2016), Some(Clock(17, 30)), Some(Date(9, 4, 2016)), Some(Clock(1, 0)));
    assert ValidFields(f);
  }

  // ---------------------------------------- a cancelled whole-day entry

  const WHOLE_DAY_LINE: string := "14/3-2016 Hele dagen"
  const CANCELLED_TEXT: string := "Aflyst!" + "\n" + ("Math 1a" + "\n" + WHOLE_DAY_LINE)

  /** Any line shorter than the shortest date is not a time line. */
  lemma ShortLineIsNoTimeLine(line: string)
    requires |line| < 8
    ensures !IsTimeLine(line)
  {
    assert forall i: nat :: TimeLineMatcher()(line, i).None? by {
      forall i: nat ensures !TimeLineAt(line, i) {
        assert DateAt(line, i).None?;
      }
    }
  }

  lemma CancelledTextLines()
    ensures SplitLines(CANCELLED_TEXT) == ["Aflyst!", "Math 1a", WHOLE_DAY_LINE]
  {
    var lines := ["Aflyst!", "Math 1a", WHOLE_DAY_LINE];
    assert lines[1..] == ["Math 1a", WHOLE_DAY_LINE];
    assert lines[1..][1..] == [WHOLE_DAY_LINE];
    assert JoinWith("\n", lines[1..]) == "Math 1a" + "\n" + WHOLE_DAY_LINE;
    assert JoinWith("\n", lines) == CANCELLED_TEXT;
    assert forall n :: 0 <= n < |lines| ==> NoBoundary(lines[n]) by {
      assert NoBoundary(lines[0]) && NoBoundary(lines[1]) && NoBoundary(lines[2]);
    }
    SplitLinesJoin(lines);
  }

  lemma WholeDayDateDay()
    ensures NumberThen(WHOLE_DAY_LINE, 0, '/') == Some((14, 3))
  {
  }

  lemma WholeDayDateMonth()
    ensures NumberThen(WHOLE_DAY_LINE, 3, '-') == Some((3, 5))
  {
  }

  lemma WholeDayDateYear()
    ensures FourDigitsAt(WHOLE_DAY_LINE, 5) == Some((2016, 9))
  {
  }

  lemma WholeDayDate()
    ensures DateAt(WHOLE_DAY_LINE, 0) == Some((Date(14, 3, 2016), 9))
  {
    WholeDayDateDay();
    WholeDayDateMonth();
    WholeDayDateYear();
  }

  /** `p` occurs at `i`, read off character by character. */
  lemma SliceMatches(s: string, i: nat, p: string)
    requires i + |p| <= |s|
    requires forall k :: 0 <= k < |p| ==> s[i + k] == p[k]
    ensures OccursAt(s, i, p)
  {
    assert s[i..i + |p|] == p;
  }

  lemma WholeDayWords()
    ensures CharAt(WHOLE_DAY_LINE, 9, ' ')
    ensures OccursAt(WHOLE_DAY_LINE, 10, "Hele dagen")
  {
    forall k | 0 <= k < 10 ensures WHOLE_DAY_LINE[10 + k] == "Hele dagen"[k] {
      assert k == 0 || k == 1 || k == 2 || k == 3 || k == 4 || k == 5 || k == 6 || k == 7 || k == 8 || k == 9;
    }
    SliceMatches(WHOLE_DAY_LINE, 10, "Hele dagen");
  }

  lemma WholeDayIsTimeLine()
    ensures IsTimeLine(WHOLE_DAY_LINE)
  {
    WholeDayDate();
    WholeDayWords();
    assert TimeLineAt(WHOLE_DAY_LINE, 0);
    TimeLineAtMakesTimeLine(WHOLE_DAY_LINE, 0);
  }

  /** `14/3-2016 Hele dagen` is a time line without a clock: a header entry
      lasting the whole day. */
  lemma WholeDayLine()
    ensures IsTimeLine(WHOLE_DAY_LINE)
    ensures GetTimeFromLine(WHOLE_DAY_LINE)
         == Ok(TimeRange(DateOnly(Date(14, 3, 2016)), DateOnly(Date(14, 3, 2016)), true))
  {
    WholeDayIsTimeLine();
    WholeDayTime();
  }

  lemma WholeDayTime()
    ensures GetTimeFromLine(WHOLE_DAY_LINE)
         == Ok(TimeRange(DateOnly(Date(14, 3, 2016)), DateOnly(Date(14, 3, 2016)), true))
  {
    WholeDayFields();
    WholeDayDate();
    GetTimeFromLineReads(WHOLE_DAY_LINE, 0);
    WholeDayRange();
  }

  lemma WholeDayRange()
    ensures ToTimeRange(TimeFields(Date(14, 3, 2016), None, None, None))
         == Ok(TimeRange(DateOnly(Date(14, 3, 2016)), DateOnly(Date(14, 3, 2016)), true))
  {
    assert ValidFields(TimeFields(Date(14, 3, 2016), None, None, None));
  }

  lemma WholeDayFields()
    ensures TimeFieldsAt(WHOLE_DAY_LINE, 0) == Some(TimeFields(Date(14, 3, 2016), None, None, None))
  {
    WholeDayDate();
    assert RangeAt(WHOLE_DAY_LINE, 9).None?;
  }

  /** The status line and the title line are consumed before the walk. */
  lemma CancelledPreamble()
    ensures ReadPreamble(SplitLines(CANCELLED_TEXT)) == Ok(Preamble(Some(Cancelled), "Math 1a", 2))
  {
    CancelledTextLines();
    MarkersAreStatusLines();
    ShortLineIsNoTimeLine("Math 1a");
  }

  lemma WholeDayScan()
    ensures ScanLines(START_SCAN, [WHOLE_DAY_LINE])
         == Ok(START_SCAN.(start := Some(DateOnly(Date(14, 3, 2016))),
                           end := Some(DateOnly(Date(14, 3, 2016))), isTop := true))
  {
    WholeDayLine();
    assert Classify(WHOLE_DAY_LINE) == TimeLine;
  }

  /** With only a title, the title becomes the summary and nothing is left
      for the description. */
  lemma TitleOnlyTexts()
    ensures CleanSummary("") == ""
    ensures Compose("", "", "Math 1a", None, "", "") == Texts("Math 1a", "")
    ensures NormalizeDescription("") == None
  {
  }

  /** Scenario: a cancelled whole-day entry titled `Math 1a`. The title is the
      summary, there is no description, and it is a header entry. */
  lemma CancelledWholeDay()
    ensures ExtractLessonInfo(CANCELLED_TEXT)
         == Ok(LessonInfo("Math 1a", Some(Cancelled),
                          Some(DateOnly(Date(14, 3, 2016))), Some(DateOnly(Date(14, 3, 2016))),
                          None, None, true))
  {
    var lines := SplitLines(CANCELLED_TEXT);
    CancelledTextLines();
    CancelledPreamble();
    assert lines[2..] == [WHOLE_DAY_LINE];
    WholeDayScan();
    TitleOnlyTexts();
  }

  // ------------------------------------------------- a same-day lesson

  const SAME_DAY_LINE: string := "14/3-2016 15:20 til 16:50"
  const ROOM_LINE: string := "Lokale: 204"
  const CLASS_LINE: string := "Hold: 1a"
  const SAME_DAY_TEXT: string := SAME_DAY_LINE + "\n" + (ROOM_LINE + "\n" + CLASS_LINE)

  /** A pattern whose first character does not occur in `s` occurs nowhere. */
  lemma AbsentInitial(s: string, p: string)
    requires |p| > 0 && p[0] !in s
    ensures forall i: nat :: !OccursAt(s, i, p)
  {
    forall i: nat ensures !OccursAt(s, i, p) {
      if i + |p| <= |s| {
        assert s[i..i + |p|][0] == s[i];
      }
    }
  }

  /** A line with no digit early enough to start a date is not a time line. */
  lemma NoEarlyDigitNoTimeLine(line: string)
    requires forall i :: 0 <= i && i + 8 <= |line| ==> !IsDigit(line[i])
    ensures !IsTimeLine(line)
  {
    assert forall i: nat :: TimeLineMatcher()(line, i).None? by {
      forall i: nat ensures !TimeLineAt(line, i) {
        assert DateAt(line, i).None?;
      }
    }
  }

  lemma SameDayTextLines()
    ensures SplitLines(SAME_DAY_TEXT) == [SAME_DAY_LINE, ROOM_LINE, CLASS_LINE]
  {
    var lines := [SAME_DAY_LINE, ROOM_LINE, CLASS_LINE];
    assert lines[1..] == [ROOM_LINE, CLASS_LINE];
    assert lines[1..][1..] == [CLASS_LINE];
    assert JoinWith("\n", lines[1..]) == ROOM_LINE + "\n" + CLASS_LINE;
    assert JoinWith("\n", lines) == SAME_DAY_TEXT;
    assert forall n :: 0 <= n < |lines| ==> NoBoundary(lines[n]) by {
      assert NoBoundary(lines[0]) && NoBoundary(lines[1]) && NoBoundary(lines[2]);
    }
    SplitLinesJoin(lines);
  }

  lemma SameDayDateDay()
    ensures NumberThen(SAME_DAY_LINE, 0, '/') == Some((14, 3))
  {
  }

  lemma SameDayDateMonth()
    ensures NumberThen(SAME_DAY_LINE, 3, '-') == Some((3, 5))
  {
  }

  lemma SameDayDateYear()
    ensures FourDigitsAt(SAME_DAY_LINE, 5) == Some((2016, 9))
  {
  }

  lemma SameDayDate()
    ensures DateAt(SAME_DAY_LINE, 0) == Some((Date(14, 3, 2016), 9))
  {
    SameDayDateDay();
    SameDayDateMonth();
    SameDayDateYear();
  }

  lemma SameDayEndClock()
    ensures ClockAt(SAME_DAY_LINE, 20) == Some((Clock(16, 50), 25))
    ensures DateAt(SAME_DAY_LINE, 20).None?
  {
    assert NumberThen(SAME_DAY_LINE, 20, '/').None?;
  }

  lemma SameDayEnd()
    ensures ClockAt(SAME_DAY_LINE, 20) == Some((Clock(16, 50), 25))
    ensures EndAt(SAME_DAY_LINE, 20) == Some((None, Clock(16, 50)))
  {
    SameDayEndClock();
  }

  lemma SameDayStartClock()
    ensures ClockAt(SAME_DAY_LINE, 10) == Some((Clock(15, 20), 15))
  {
  }

  lemma SameDayTil()
    ensures CharAt(SAME_DAY_LINE, 9, ' ')
    ensures OccursAt(SAME_DAY_LINE, 15, " til ")
  {
    assert SAME_DAY_LINE[15..20] == " til ";
  }

  lemma SameDayRange()
    ensures ClockAt(SAME_DAY_LINE, 10) == Some((Clock(15, 20), 15))
    ensures OccursAt(SAME_DAY_LINE, 15, " til ")
    ensures RangeAt(SAME_DAY_LINE, 9) == Some((Clock(15, 20), None, Clock(16, 50)))
  {
    SameDayStartClock();
    SameDayTil();
    SameDayEnd();
    RangeReadsRead(SAME_DAY_LINE, 9, Clock(15, 20), None, Clock(16, 50));
  }

  lemma SameDayIsTimeLine()
    ensures IsTimeLine(SAME_DAY_LINE)
  {
    SameDayDate();
    SameDayRange();
    SameDayEnd();
    assert ClockRangeAt(SAME_DAY_LINE, 10);
    TimeLineAtMakesTimeLine(SAME_DAY_LINE, 0);
  }

  /** The reading pattern with its optional group present. */
  lemma FieldsFromRange(s: string, i: nat, d1: Date, j: nat, t1: Clock, d2: Option<Date>, t2: Clock)
    requires DateAt(s, i) == Some((d1, j)) && RangeAt(s, j) == Some((t1, d2, t2))
    ensures TimeFieldsAt(s, i) == Some(TimeFields(d1, Some(t1), d2, Some(t2)))
  {
  }

  /** Without a second date the end falls on the start date. */
  lemma SameDayTimes()
    ensures GetTimeFromLine(SAME_DAY_LINE)
         == Ok(TimeRange(DateTime(Date(14, 3, 2016), Clock(15, 20)),
                         DateTime(Date(14, 3, 2016), Clock(16, 50)), false))
  {
    SameDayFields();
    SameDayDate();
    GetTimeFromLineReads(SAME_DAY_LINE, 0);
    SameDayToRange();
  }

  lemma SameDayToRange()
    ensures ToTimeRange(TimeFields(Date(14, 3, 2016), Some(Clock(15, 20)), None, Some(Clock(16, 50))))
         == Ok(TimeRange(DateTime(Date(14, 3, 2016), Clock(15, 20)),
                         DateTime(Date(14, 3, 2016), Clock(16, 50)), false))
  {
    assert ValidFields(TimeFields(Date(14, 3, 2016), Some(Clock(15, 20)), None, Some(Clock(16, 50))));
  }

  lemma SameDayFields()
    ensures TimeFieldsAt(SAME_DAY_LINE, 0)
         == Some(TimeFields(Date(14, 3, 2016), Some(Clock(15, 20)), None, Some(Clock(16, 50))))
  {
    SameDayDate();
    SameDayRange();
    FieldsFromRange(SAME_DAY_LINE, 0, Date(14, 3, 2016), 9, Clock(15, 20), None, Clock(16, 50));
  }

  lemma RoomLineIsNoTimeLine()
    ensures !IsTimeLine(ROOM_LINE)
  {
    assert forall i :: 0 <= i && i + 8 <= |ROOM_LINE| ==> !IsDigit(ROOM_LINE[i]) by {
      forall i | 0 <= i && i + 8 <= |ROOM_LINE| ensures !IsDigit(ROOM_LINE[i]) {
        assert i == 0 || i == 1 || i == 2 || i == 3;
      }
    }
    NoEarlyDigitNoTimeLine(ROOM_LINE);
  }

  lemma RoomMarker()
    ensures LocationMarkerAt(ROOM_LINE, 0) == Some(8)
  {
    assert ROOM_LINE[7] != "Lokaler: "[7];
    forall k | 0 <= k < 8 ensures ROOM_LINE[k] == "Lokale: "[k] {
      assert k == 0 || k == 1 || k == 2 || k == 3 || k == 4 || k == 5 || k == 6 || k == 7;
    }
    SliceMatches(ROOM_LINE, 0, "Lokale: ");
  }

  lemma RoomNumber()
    ensures RestOfLine(ROOM_LINE, 8) == "204"
  {
    forall k | 0 <= k < |ROOM_LINE| ensures ROOM_LINE[k] != '\n' {
      assert k == 0 || k == 1 || k == 2 || k == 3 || k == 4 || k == 5 || k == 6 || k == 7 || k == 8 || k == 9 || k == 10;
    }
    RestOfLineWithoutNewline(ROOM_LINE, 8);
    forall k | 0 <= k < 3 ensures ROOM_LINE[8 + k] == "204"[k] {
      assert k == 0 || k == 1 || k == 2;
    }
    assert ROOM_LINE[8..] == "204";
  }

  /** The room line: a location line, read as `204`. */
  lemma RoomLine()
    ensures Classify(ROOM_LINE) == LocationLine
    ensures GetLocationFromLine(ROOM_LINE) == Ok("204")
  {
    RoomLineIsNoTimeLine();
    RoomMarker();
    RoomNumber();
    assert LocationMarkerMatcher()(ROOM_LINE, 0).Some?;
    assert LocationCaptureMatcher()(ROOM_LINE, 0) == Some("204");
  }

  /** Scenario: a location marker with nothing after it gives the empty
      location, not an error. */
  lemma EmptyRoom()
    ensures GetLocationFromLine("Lokale: ") == Ok("")
  {
    assert OccursAt("Lokale: ", 0, "Lokale: ");
    assert LocationCaptureMatcher()("Lokale: ", 0) == Some("");
  }

  /** The class line: a groups line, read as `1a`. */
  lemma ClassLine()
    ensures Classify(CLASS_LINE) == GroupsLine
    ensures GetGroupsFromLine(CLASS_LINE) == Ok("1a")
  {
    assert !IsDigit(CLASS_LINE[0]);
    NoEarlyDigitNoTimeLine(CLASS_LINE);
    AbsentInitial(CLASS_LINE, "Lokaler: ");
    AbsentInitial(CLASS_LINE, "Lokale: ");
    assert forall i: nat :: LocationMarkerMatcher()(CLASS_LINE, i).None?;
    assert OccursAt(CLASS_LINE, 0, GROUPS_MARKER);
    forall k | 0 <= k < |CLASS_LINE| ensures CLASS_LINE[k] != '\n' {
      assert k == 0 || k == 1 || k == 2 || k == 3 || k == 4 || k == 5 || k == 6 || k == 7;
    }
    RestOfLineWithoutNewline(CLASS_LINE, 6);
  }

  /** A first line that is a time line gives neither status nor title. */
  lemma SameDayPreamble()
    ensures ReadPreamble(SplitLines(SAME_DAY_TEXT)) == Ok(Preamble(None, "", 0))
  {
    SameDayTextLines();
    SameDayNoStatus();
    SameDayIsTimeLine();
  }

  lemma SameDayNoStatus()
    ensures !IsStatusLine(SAME_DAY_LINE)
  {
    AbsentInitial(SAME_DAY_LINE, CHANGED_MARKER);
    AbsentInitial(SAME_DAY_LINE, CANCELLED_MARKER);
  }

  const SAME_DAY_TIMED: Scan :=
    START_SCAN.(start := Some(DateTime(Date(14, 3, 2016), Clock(15, 20))),
                end := Some(DateTime(Date(14, 3, 2016), Clock(16, 50))))
  const SAME_DAY_ROOMED: Scan := SAME_DAY_TIMED.(location := Some("204"))
  const SAME_DAY_SCAN: Scan := SAME_DAY_ROOMED.(groups := "1a")

  lemma SameDayTimeStep()
    ensures ScanLine(START_SCAN, SAME_DAY_LINE) == Ok(SAME_DAY_TIMED)
  {
    SameDayIsTimeLine();
    SameDayTimes();
  }

  lemma SameDayRoomStep()
    ensures ScanLine(SAME_DAY_TIMED, ROOM_LINE) == Ok(SAME_DAY_ROOMED)
  {
    RoomLine();
  }

  lemma SameDayClassStep()
    ensures ScanLine(SAME_DAY_ROOMED, CLASS_LINE) == Ok(SAME_DAY_SCAN)
  {
    ClassLine();
  }

  lemma SameDayScan()
    ensures ScanLines(START_SCAN, [SAME_DAY_LINE, ROOM_LINE, CLASS_LINE]) == Ok(SAME_DAY_SCAN)
  {
    var lines := [SAME_DAY_LINE, ROOM_LINE, CLASS_LINE];
    SameDayTimeStep();
    SameDayRoomStep();
    SameDayClassStep();
    assert ScanLines(SAME_DAY_ROOMED, [CLASS_LINE]) == Ok(SAME_DAY_SCAN);
    assert lines[1..] == [ROOM_LINE, CLASS_LINE];
    assert ScanLines(SAME_DAY_TIMED, lines[1..]) == Ok(SAME_DAY_SCAN);
  }

  /** Without `Alle` among the groups the (here empty) title goes in front
      of the description, which is therefore not empty. */
  lemma SameDayTexts()
    ensures Compose(CleanSummary(""), "", "", Some("204"), "1a", "") == Texts("1a" + SPACER + "204", "\n\n")
  {
    AbsentInitial("1a", ALL_GROUPS);
    assert CleanSummary("") == "";
  }

  /** Scenario: a lesson from 15:20 to 16:50 on one day, in room 204, for the
      class 1a. */
  lemma SameDayLesson()
    ensures ExtractLessonInfo(SAME_DAY_TEXT)
         == Ok(LessonInfo("1a" + SPACER + "204", None,
                          Some(DateTime(Date(14, 3, 2016), Clock(15, 20))),
                          Some(DateTime(Date(14, 3, 2016), Clock(16, 50))),
                          Some("204"), Some("\n\n"), false))
  {
    var lines := SplitLines(SAME_DAY_TEXT);
    SameDayTextLines();
    SameDayPreamble();
    assert lines[0..] == lines;
    SameDayScan();
    SameDayTexts();
  }

  // ---------------------------------------------- where the title goes

  /** Scenario: for a team including `Alle` the title leads the summary. */
  lemma AllGroupsTitleInSummary()
    ensures Compose("", "", "Math", None, "Alle 1a, 1b", "")
         == Texts("Math" + SPACER + "Alle 1a, 1b", "")
  {
    assert OccursAt("Alle 1a, 1b", 0, ALL_GROUPS);
    ContainsAt("Alle 1a, 1b", ALL_GROUPS, 0);
  }

  /** Scenario: for a single class the title leads the description. */
  lemma ClassTitleInDescription()
    ensures Compose("", "", "Math", None, "1a", "") == Texts("1a", "Math\n\n")
  {
    AbsentInitial("1a", ALL_GROUPS);
  }

  // ------------------------------------------------- merging the weeks

  /** Scenario: a lesson fetched in two weeks is kept once, where it came
      first. */
  lemma TwoWeeks(a: Lesson, b: Lesson)
    ensures Concat([[a, b], [a]]) == [a, b, a]
  {
    var weeks := [[a, b], [a]];
    assert weeks[..1] == [[a, b]];
    assert weeks[..1][..0] == [];
    assert Concat(weeks[..1]) == [a, b];
  }

  lemma DistinctPairKept(a: Lesson, b: Lesson)
    requires a != b
    ensures FirstOccurrences([a, b]) == [a, b]
  {
    assert [a, b][..1] == [a] && b !in [a];
    assert [a][..0] == [];
    assert FirstOccurrences([a]) == [a];
  }

  lemma RepeatedLessonKeptOnce(a: Lesson, b: Lesson)
    requires a != b
    ensures FirstOccurrences(Concat([[a, b], [a]])) == [a, b]
  {
    TwoWeeks(a, b);
    DistinctPairKept(a, b);
    var s := [a, b, a];
    assert s[..2] == [a, b] && s[2] == a && a in s[..2];
  }

  // --------------------------------------------------------- link ids

  const ACTIVITY_LINK: string := "?absid=42&prevurl=x"

  lemma NoIdAtStart()
    ensures IdAt(ACTIVITY_LINK, 0).None?
  {
    assert ACTIVITY_LINK[0] == '?';
    assert forall n :: 0 <= n < |ID_KEYS| ==> (ID_KEYS[n] + "=")[0] != '?';
    assert forall n :: 0 <= n < |ID_KEYS| ==> !OccursAt(ACTIVITY_LINK, 0, ID_KEYS[n] + "=");
  }

  lemma AbsIdDigits()
    ensures DigitRun(ACTIVITY_LINK, 7) == "42"
  {
    assert ACTIVITY_LINK[7] == '4' && ACTIVITY_LINK[8] == '2' && ACTIVITY_LINK[9] == '&';
    assert DigitRun(ACTIVITY_LINK, 9) == "";
    assert DigitRun(ACTIVITY_LINK, 8) == "2";
  }

  lemma AbsIdAt()
    ensures IdAt(ACTIVITY_LINK, 1) == Some("42")
  {
    assert ID_KEYS[0] + "=" == "absid=";
    assert ACTIVITY_LINK[1..7] == "absid=";
    assert OccursAt(ACTIVITY_LINK, 1, ID_KEYS[0] + "=");
    assert DigitAt(ACTIVITY_LINK, 7);
    AbsIdDigits();
    assert KeyedIdAt(ACTIVITY_LINK, 1, ID_KEYS) == Some(DigitRun(ACTIVITY_LINK, 7));
  }

  /** Scenario: the id after `absid=`; the digits stop at the next `&`. */
  lemma ActivityId()
    ensures GetIdFromLink(ACTIVITY_LINK) == Some("42")
  {
    NoIdAtStart();
    AbsIdAt();
    assert SearchFrom(IdMatcher(), ACTIVITY_LINK, 1) == Some((1, "42"));
  }

  /** Scenario: everything from `&prevurl=` on is cut off. */
  lemma ActivityCompleteLink()
    ensures GetCompleteLink(ACTIVITY_LINK) == BASE_URL + "?absid=42"
  {
    assert OccursAt(ACTIVITY_LINK, 9, PREVURL);
    forall k | 0 <= k < 9 ensures !OccursAt(ACTIVITY_LINK, k, PREVURL) {
      assert ACTIVITY_LINK[k] != '&' by {
        assert k == 0 || k == 1 || k == 2 || k == 3 || k == 4 || k == 5 || k == 6 || k == 7 || k == 8;
      }
    }
    assert FindFrom(ACTIVITY_LINK, PREVURL, 0) == Some(9);
    assert ACTIVITY_LINK[..9] == "?absid=42";
  }

  // ------------------------------------------------------- teacher names

  const TEACHER_SUMMARY: string := "Lærer: Hans Hansen (HH)"

  /** A pattern that does not fit at `0` and whose first character does not
      occur after it occurs nowhere. */
  lemma AbsentAfterStart(s: string, p: string)
    requires |s| > 0 && |p| > 0 && !OccursAt(s, 0, p) && p[0] !in s[1..]
    ensures forall i: nat :: !OccursAt(s, i, p)
  {
    forall i: nat | 0 < i ensures !OccursAt(s, i, p) {
      if i + |p| <= |s| {
        assert s[i..i + |p|][0] == s[1..][i - 1];
      }
    }
  }

  lemma NoTeachersPrefix()
    ensures forall i: nat :: !OccursAt(TEACHER_SUMMARY, i, TEACHERS_PREFIX)
  {
    assert TEACHER_SUMMARY[5] != TEACHERS_PREFIX[5];
    assert TEACHER_SUMMARY[1..] == "ærer: Hans Hansen (HH)";
    AbsentAfterStart(TEACHER_SUMMARY, TEACHERS_PREFIX);
  }

  lemma TeacherOpening()
    ensures FindFrom(TEACHER_SUMMARY, "(", 7) == Some(19)
  {
    forall k | 7 <= k < 19 ensures !OccursAt(TEACHER_SUMMARY, k, "(") {
      assert k == 7 || k == 8 || k == 9 || k == 10 || k == 11 || k == 12
          || k == 13 || k == 14 || k == 15 || k == 16 || k == 17 || k == 18;
      assert TEACHER_SUMMARY[k] != '(';
      assert TEACHER_SUMMARY[k..k + 1][0] == TEACHER_SUMMARY[k];
    }
    assert OccursAt(TEACHER_SUMMARY, 19, "(");
  }

  lemma TeacherClosing()
    ensures FindFrom(TEACHER_SUMMARY, ")", 20) == Some(22)
  {
    assert TEACHER_SUMMARY[20..22] == "HH";
    assert TEACHER_SUMMARY[20..21] == "H" && TEACHER_SUMMARY[21..22] == "H";
    assert OccursAt(TEACHER_SUMMARY, 22, ")");
  }

  lemma TeacherMatch()
    ensures TeacherAt(TEACHER_SUMMARY, 0) == Some(("HH", 23))
  {
    TeacherOpening();
    TeacherClosing();
    TeacherMarkerAtStart();
    forall k | 0 <= k < 2 ensures TEACHER_SUMMARY[20 + k] == "HH"[k] {
      assert k == 0 || k == 1;
    }
    assert TEACHER_SUMMARY[20..22] == "HH";
  }

  lemma TeacherMarkerAtStart()
    ensures OccursAt(TEACHER_SUMMARY, 0, TEACHER_MARKER)
  {
    forall k | 0 <= k < 7 ensures TEACHER_SUMMARY[k] == TEACHER_MARKER[k] {
      assert k == 0 || k == 1 || k == 2 || k == 3 || k == 4 || k == 5 || k == 6;
    }
    SliceMatches(TEACHER_SUMMARY, 0, TEACHER_MARKER);
  }

  lemma TeacherCompacted()
    ensures CompactTeachers(TEACHER_SUMMARY, 0) == "HH"
  {
    TeacherMatch();
    assert |TEACHER_SUMMARY| == 23;
  }

  /** Scenario: a teacher's full name shrinks to the initials. */
  lemma TeacherInitials()
    ensures CleanSummary(TEACHER_SUMMARY) == "HH"
  {
    NoTeachersPrefix();
    ReplaceAllAbsent(TEACHER_SUMMARY, TEACHERS_PREFIX, "");
    TeacherCompacted();
  }

  const NAME_ONLY: string := "Lærer: Hans Hansen"

  /** The name-only line has no `(` at all. */
  lemma NameOnlyNoParen()
    ensures forall k :: 0 <= k < |NAME_ONLY| ==> NAME_ONLY[k] != '('
  {
    forall k | 0 <= k < |NAME_ONLY| ensures NAME_ONLY[k] != '(' {
      assert k == 0 || k == 1 || k == 2 || k == 3 || k == 4 || k == 5 || k == 6 || k == 7 || k == 8
          || k == 9 || k == 10 || k == 11 || k == 12 || k == 13 || k == 14 || k == 15
          || k == 16 || k == 17;
    }
  }

  /** The name-only line's only `L` is its first character. */
  lemma NameOnlyOneL()
    ensures 'L' !in NAME_ONLY[1..]
  {
    forall k | 1 <= k < |NAME_ONLY| ensures NAME_ONLY[k] != 'L' {
      assert k == 1 || k == 2 || k == 3 || k == 4 || k == 5 || k == 6 || k == 7 || k == 8
          || k == 9 || k == 10 || k == 11 || k == 12 || k == 13 || k == 14 || k == 15
          || k == 16 || k == 17;
    }
    assert forall k :: 0 <= k < |NAME_ONLY[1..]| ==> NAME_ONLY[1..][k] == NAME_ONLY[k + 1];
  }

  lemma NameOnlyNoTeachersPrefix()
    ensures forall i: nat :: !OccursAt(NAME_ONLY, i, TEACHERS_PREFIX)
  {
    NameOnlyOneL();
    assert NAME_ONLY[5] != TEACHERS_PREFIX[5];
    AbsentAfterStart(NAME_ONLY, TEACHERS_PREFIX);
  }

  /** Scenario: a teacher named without initials in parentheses is no entry,
      and the text stays as it is. */
  lemma NameOnlyKept()
    ensures CleanSummary(NAME_ONLY) == NAME_ONLY
  {
    NameOnlyNoTeachersPrefix();
    ReplaceAllAbsent(NAME_ONLY, TEACHERS_PREFIX, "");
    NameOnlyNoParen();
    CompactTeachersNoClose(NAME_ONLY, 0);
    assert NAME_ONLY[0..] == NAME_ONLY;
  }

  // ------------------------------------- a teacher line in a whole lesson

  const TEACHER_TEXT: string := "Math 1a" + "\n" + (WHOLE_DAY_LINE + "\n" + TEACHER_SUMMARY)

  /** After the whole-day line the walk has the day and is a header entry. */
  const WHOLE_DAY_SCAN: Scan :=
    START_SCAN.(start := Some(DateOnly(Date(14, 3, 2016))),
                end := Some(DateOnly(Date(14, 3, 2016))), isTop := true)

  lemma TeacherTextLines()
    ensures SplitLines(TEACHER_TEXT) == ["Math 1a", WHOLE_DAY_LINE, TEACHER_SUMMARY]
  {
    var lines := ["Math 1a", WHOLE_DAY_LINE, TEACHER_SUMMARY];
    assert lines[1..] == [WHOLE_DAY_LINE, TEACHER_SUMMARY];
    assert lines[1..][1..] == [TEACHER_SUMMARY];
    assert JoinWith("\n", lines[1..]) == WHOLE_DAY_LINE + "\n" + TEACHER_SUMMARY;
    assert JoinWith("\n", lines) == TEACHER_TEXT;
    assert forall n :: 0 <= n < |lines| ==> NoBoundary(lines[n]) by {
      assert NoBoundary(lines[0]) && NoBoundary(lines[1]) && NoBoundary(lines[2]);
    }
    SplitLinesJoin(lines);
  }

  /** A title line without a marker: no status, and the title is taken. */
  lemma TeacherPreamble()
    ensures ReadPreamble(SplitLines(TEACHER_TEXT)) == Ok(Preamble(None, "Math 1a", 1))
  {
    TeacherTextLines();
    AbsentInitial("Math 1a", CHANGED_MARKER);
    AbsentInitial("Math 1a", CANCELLED_MARKER);
    ShortLineIsNoTimeLine("Math 1a");
  }

  /** The teacher line's only `L` is its first character. */
  lemma TeacherOneL()
    ensures 'L' !in TEACHER_SUMMARY[1..]
  {
    forall k | 1 <= k < |TEACHER_SUMMARY| ensures TEACHER_SUMMARY[k] != 'L' {
      assert k == 1 || k == 2 || k == 3 || k == 4 || k == 5 || k == 6 || k == 7 || k == 8
          || k == 9 || k == 10 || k == 11 || k == 12 || k == 13 || k == 14 || k == 15
          || k == 16 || k == 17 || k == 18 || k == 19 || k == 20 || k == 21 || k == 22;
    }
    assert forall k :: 0 <= k < |TEACHER_SUMMARY[1..]| ==> TEACHER_SUMMARY[1..][k] == TEACHER_SUMMARY[k + 1];
  }

  /** No location marker occurs in the teacher line: its `L` is followed by
      `æ`, and no other `L` follows. */
  lemma TeacherNoLocationMarker()
    ensures forall i: nat :: !OccursAt(TEACHER_SUMMARY, i, "Lokaler: ")
    ensures forall i: nat :: !OccursAt(TEACHER_SUMMARY, i, "Lokale: ")
  {
    TeacherOneL();
    assert TEACHER_SUMMARY[1] != "Lokaler: "[1] && TEACHER_SUMMARY[1] != "Lokale: "[1];
    AbsentAfterStart(TEACHER_SUMMARY, "Lokaler: ");
    AbsentAfterStart(TEACHER_SUMMARY, "Lokale: ");
  }

  lemma TeacherNoLocation()
    ensures !IsLocationLine(TEACHER_SUMMARY)
  {
    TeacherNoLocationMarker();
    assert forall k :: 0 <= k <= |TEACHER_SUMMARY| ==> LocationMarkerMatcher()(TEACHER_SUMMARY, k).None?;
  }

  /** No classifier accepts the teacher line, so it is free text. */
  lemma TeacherIsFreeText()
    ensures Classify(TEACHER_SUMMARY) == FreeText
  {
    TeacherNoTime();
    TeacherNoLocation();
    TeacherNoMarkerAtStart();
  }

  lemma TeacherNoTime()
    ensures !IsTimeLine(TEACHER_SUMMARY)
  {
    NoEarlyDigitNoTimeLine(TEACHER_SUMMARY);
  }

  lemma TeacherNoMarkerAtStart()
    ensures !IsGroupsLine(TEACHER_SUMMARY) && !IsResourcesLine(TEACHER_SUMMARY)
  {
    assert TEACHER_SUMMARY[0] != GROUPS_MARKER[0] && TEACHER_SUMMARY[0] != RESOURCES_MARKER[0];
  }

  lemma WholeDayStep()
    ensures ScanLine(START_SCAN, WHOLE_DAY_LINE) == Ok(WHOLE_DAY_SCAN)
  {
    WholeDayLine();
    assert Classify(WHOLE_DAY_LINE) == TimeLine;
  }

  /** A first free-text header line becomes the summary and changes nothing else. */
  lemma FirstFreeTextStep(acc: Scan, line: string)
    requires acc.inHeader && acc.summary == "" && line != "" && Classify(line) == FreeText
    ensures ScanLine(acc, line) == Ok(acc.(summary := line))
  {
    assert AppendSection(line, "") == line;
  }

  lemma TeacherStep()
    ensures ScanLine(WHOLE_DAY_SCAN, TEACHER_SUMMARY) == Ok(WHOLE_DAY_SCAN.(summary := TEACHER_SUMMARY))
  {
    TeacherIsFreeText();
    FirstFreeTextStep(WHOLE_DAY_SCAN, TEACHER_SUMMARY);
  }

  lemma TeacherScan()
    ensures ScanLines(START_SCAN, [WHOLE_DAY_LINE, TEACHER_SUMMARY])
         == Ok(WHOLE_DAY_SCAN.(summary := TEACHER_SUMMARY))
  {
    WholeDayStep();
    TeacherStep();
    ScanTwoLines(START_SCAN, WHOLE_DAY_LINE, TEACHER_SUMMARY, WHOLE_DAY_SCAN, WHOLE_DAY_SCAN.(summary := TEACHER_SUMMARY));
  }

  /** A walk over two lines is two steps. */
  lemma ScanTwoLines(acc: Scan, a: string, b: string, mid: Scan, last: Scan)
    requires ScanLine(acc, a) == Ok(mid) && ScanLine(mid, b) == Ok(last)
    ensures ScanLines(acc, [a, b]) == Ok(last)
  {
    assert [a, b][1..] == [b];
    assert [b][1..] == [];
    assert ScanLines(last, []) == Ok(last);
    assert ScanLines(mid, [b]) == Ok(last);
  }

  /** Scenario: a whole-day lesson titled `Math 1a` whose text names its
      teacher in full. The summary keeps only the initials, behind the title. */
  lemma TeacherLesson()
    ensures ExtractLessonInfo(TEACHER_TEXT)
         == Ok(LessonInfo("Math 1a" + SPACER + "HH", None,
                          Some(DateOnly(Date(14, 3, 2016))), Some(DateOnly(Date(14, 3, 2016))),
                          None, None, true))
  {
    var lines := SplitLines(TEACHER_TEXT);
    TeacherTextLines();
    TeacherPreamble();
    assert lines[1..] == [WHOLE_DAY_LINE, TEACHER_SUMMARY];
    TeacherScan();
    TeacherInitials();
    assert Compose("HH", "", "Math 1a", None, "", "") == Texts("Math 1a" + SPACER + "HH", "");
  }
}

=== FILE: schedule.dfy ===
/** From tiles to the merged schedule, `lectocal/lectio.py:322-376`: the
    visibility filter applied to each tile, the page loop, and the
    de-duplication of the concatenated weekly schedules. */
module Schedule {
  import opened Wrappers
  import opened Errors
  import opened TimeLines
  import opened LineKinds
  import opened Extraction
  import opened Links
  import opened Patterns
  import opened Dedup

  /** `lesson.Lesson`; two lessons are the same when every field is. */
  datatype Lesson = Lesson(id: Option<string>, summary: string, status: Option<Status>,
                           start: Option<When>, end: Option<When>, location: Option<string>,
                           description: Option<string>, link: Option<string>)

  /** A schedule tile as the HTML parser hands it over: its `href` and its
      `data-additionalinfo` text. */
  datatype Tile = Tile(href: Option<string>, info: string)

  /** Lines 323-327: a non-empty `href` gives the id and the complete link;
      an absent or empty one is kept as it is, without an id. */
  function TileLink(href: Option<string>): (r: (Option<string>, Option<string>))
    ensures href.None? || href.value == "" ==> r == (None, href)
    ensures href.Some? && href.value != "" ==> r.1.Some? && OccursAt(r.1.value, 0, BASE_URL)
    ensures r.0.Some? ==> href.Some? && r.0 == GetIdFromLink(href.value)
    ensures href.Some? && href.value != "" ==> r == (GetIdFromLink(href.value), Some(GetCompleteLink(href.value)))
  {
    if href.Some? && href.value != "" then
      (GetIdFromLink(href.value), Some(GetCompleteLink(href.value)))
    else (None, href)
  }

  /** Whether the visibility flags hide a lesson with this extracted info. */
  predicate Hidden(info: LessonInfo, showTop: bool, showCancelled: bool) {
    (!showTop && info.isTop) || (!showCancelled && info.status == Some(Cancelled))
  }

  /** `_parse_element_to_lesson`: extraction errors propagate; a hidden
      lesson is `None`; otherwise the lesson holds exactly the extracted
      values and the tile's id and link. */
  function ParseElementToLesson(tile: Tile, showTop: bool, showCancelled: bool): (r: Result<Option<Lesson>, Error>)
    ensures r.Err? <==> ExtractLessonInfo(tile.info).Err?
    ensures r.Err? ==> r.error == ExtractLessonInfo(tile.info).error
    ensures r.Ok? ==> (r.value.None? <==> Hidden(ExtractLessonInfo(tile.info).value, showTop, showCancelled))
    ensures r.Ok? && r.value.Some? ==>
      var info := ExtractLessonInfo(tile.info).value;
      var lesson := r.value.value;
      && lesson.summary == info.summary && lesson.status == info.status
      && lesson.start == info.start && lesson.end == info.end
      && lesson.location == info.location && lesson.description == info.description
      && (lesson.id, lesson.link) == TileLink(tile.href)
  {
    var (id, link) := TileLink(tile.href);
    var info :- ExtractLessonInfo(tile.info);
    if !showTop && info.isTop then Ok(None)
    else if !showCancelled && info.status == Some(Cancelled) then Ok(None)
    else Ok(Some(Lesson(id, info.summary, info.status, info.start, info.end,
                        info.location, info.description, link)))
  }

  /** A lesson the flags let through: not a header entry (a whole-day start)
      unless those are shown, not cancelled unless those are shown. */
  predicate Visible(lesson: Lesson, showTop: bool, showCancelled: bool) {
    && (!showTop ==> !(lesson.start.Some? && lesson.start.value.DateOnly?))
    && (!showCancelled ==> lesson.status != Some(Cancelled))
  }

  /** What one tile contributes to the page once the page is known to be
      read: its lesson, or nothing when the flags hide it. */
  function TileLesson(tile: Tile, showTop: bool, showCancelled: bool): Option<Lesson> {
    match ParseElementToLesson(tile, showTop, showCancelled)
    case Ok(lesson) => lesson
    case Err(_) => None
  }

  /** `f` applied to every element, in order. */
  function Map<A, B>(xs: seq<A>, f: A -> B): seq<B> {
    seq(|xs|, n requires 0 <= n < |xs| => f(xs[n]))
  }

  lemma MapCons<A, B>(xs: seq<A>, f: A -> B)
    requires xs != []
    ensures Map(xs, f) == [f(xs[0])] + Map(xs[1..], f)
  {
    var all := Map(xs, f);
    var rest := Map(xs[1..], f);
    assert forall n :: 0 <= n < |rest| ==> rest[n] == all[n + 1];
  }

  /** The present values, in order. */
  function Somes<T>(options: seq<Option<T>>): seq<T>
    decreases |options|
  {
    if options == [] then []
    else (if options[0].Some? then [options[0].value] else []) + Somes(options[1..])
  }

  /** The lessons of the tiles, in tile order. */
  function TileLessons(tiles: seq<Tile>, showTop: bool, showCancelled: bool): seq<Option<Lesson>> {
    Map(tiles, tile => TileLesson(tile, showTop, showCancelled))
  }

  /** The loop of `_parse_page_to_lessons` over the page's tiles: the first
      failing tile aborts the page; hidden lessons are left out. */
  function ParsePageToLessons(tiles: seq<Tile>, showTop: bool, showCancelled: bool): (r: Result<seq<Lesson>, Error>)
    ensures r.Ok? ==> |r.value| <= |tiles|
    ensures r.Ok? ==> forall n :: 0 <= n < |r.value| ==> Visible(r.value[n], showTop, showCancelled)
    ensures r.Err? ==> Reachable(r.error)
    decreases |tiles|
  {
    if tiles == [] then Ok([])
    else
      var first :- ParseElementToLesson(tiles[0], showTop, showCancelled);
      var rest :- ParsePageToLessons(tiles[1..], showTop, showCancelled);
      match first
      case None => Ok(rest)
      case Some(lesson) => Ok([lesson] + rest)
  }

  /** A page that is read holds the lessons of its tiles, in tile order,
      with the hidden ones left out. */
  lemma {:induction false} ParsePageLessons(tiles: seq<Tile>, showTop: bool, showCancelled: bool)
    ensures var r := ParsePageToLessons(tiles, showTop, showCancelled);
      r.Ok? ==> r.value == Somes(TileLessons(tiles, showTop, showCancelled))
    decreases |tiles|
  {
    if tiles != [] {
      MapCons(tiles, tile => TileLesson(tile, showTop, showCancelled));
      ParsePageLessons(tiles[1..], showTop, showCancelled);
    }
  }

  /** The page is read exactly when every tile's text can be extracted. */
  lemma {:induction false} ParsePageOk(tiles: seq<Tile>, showTop: bool, showCancelled: bool)
    ensures ParsePageToLessons(tiles, showTop, showCancelled).Ok?
        <==> forall n :: 0 <= n < |tiles| ==> ExtractLessonInfo(tiles[n].info).Ok?
    decreases |tiles|
  {
    if tiles != [] {
      var page := ParsePageToLessons(tiles, showTop, showCancelled);
      var first := ParseElementToLesson(tiles[0], showTop, showCancelled);
      var rest := ParsePageToLessons(tiles[1..], showTop, showCancelled);
      assert page.Ok? <==> first.Ok? && rest.Ok?;
      ParsePageOk(tiles[1..], showTop, showCancelled);
      assert forall n :: 1 <= n < |tiles| ==> tiles[n] == tiles[1..][n - 1];
    }
  }

  /** The weekly schedules one after another, `schedule += week_schedule`. */
  function Concat(weeks: seq<seq<Lesson>>): seq<Lesson>
    decreases |weeks|
  {
    if weeks == [] then [] else Concat(weeks[..|weeks| - 1]) + weeks[|weeks| - 1]
  }

  lemma {:induction false} ConcatMembers(weeks: seq<seq<Lesson>>, lesson: Lesson)
    ensures lesson in Concat(weeks) <==> exists n :: 0 <= n < |weeks| && lesson in weeks[n]
    decreases |weeks|
  {
    if weeks != [] {
      var init := weeks[..|weeks| - 1];
      ConcatMembers(init, lesson);
      assert forall n :: 0 <= n < |init| ==> init[n] == weeks[n];
    }
  }

  /** `_retreive_user_schedule` once the weekly schedules are fetched: they
      are concatenated in week order and de-duplicated. Every lesson of every
      week appears exactly once, at its first position. */
  method RetreiveUserSchedule(weeks: seq<seq<Lesson>>) returns (filtered: seq<Lesson>)
    ensures filtered == FirstOccurrences(Concat(weeks))
    ensures NoDuplicates(filtered)
    ensures forall n, lesson :: 0 <= n < |weeks| && lesson in weeks[n] ==> lesson in filtered
    ensures forall lesson :: lesson in filtered ==> exists n :: 0 <= n < |weeks| && lesson in weeks[n]
    ensures forall lesson :: lesson in filtered ==> multiset(filtered)[lesson] == 1
  {
    var schedule: seq<Lesson> := [];
    var i := 0;
    while i < |weeks|
      invariant 0 <= i <= |weeks|
      invariant schedule == Concat(weeks[..i])
    {
      assert weeks[..i + 1][..i] == weeks[..i];
      schedule := schedule + weeks[i];
      i := i + 1;
    }
    assert weeks[..i] == weeks;
    filtered := FilterForDuplicates(schedule);
    forall lesson | lesson in filtered
      ensures exists n :: 0 <= n < |weeks| && lesson in weeks[n]
    {
      ConcatMembers(weeks, lesson);
    }
    forall n, lesson | 0 <= n < |weeks| && lesson in weeks[n]
      ensures lesson in filtered
    {
      ConcatMembers(weeks, lesson);
    }
    forall lesson | lesson in filtered
      ensures multiset(filtered)[lesson] == 1
    {
      DistinctCountsOnce(filtered, lesson);
    }
  }

  /** A value of a sequence without duplicates occurs there once. */
  lemma {:induction false} DistinctCountsOnce(s: seq<Lesson>, lesson: Lesson)
    requires NoDuplicates(s) && lesson in s
    ensures multiset(s)[lesson] == 1
    decreases |s|
  {
    assert s == [s[0]] + s[1..];
    if s[0] == lesson {
      assert lesson !in s[1..] by {
        forall k | 0 <= k < |s[1..]| ensures s[1..][k] != lesson {
          assert s[1..][k] == s[k + 1];
        }
      }
    } else {
      assert NoDuplicates(s[1..]) by {
        forall i, j | 0 <= i < j < |s[1..]| ensures s[1..][i] != s[1..][j] {
          assert s[1..][i] == s[i + 1] && s[1..][j] == s[j + 1];
        }
      }
      DistinctCountsOnce(s[1..], lesson);
    }
  }
}

=== FILE: strings.dfy ===
/** The Python string methods the extraction relies on: `str.splitlines`,
    joining with a separator, and `str.replace`. */
module Strings {
  import opened Patterns

  /** The characters `str.splitlines` treats as line boundaries; `"\r\n"`
      together is one boundary. */
  predicate IsLineBoundary(c: char) {
    || c == '\n' || c == '\r' || c == '\U{000B}' || c == '\U{000C}'
    || c == '\U{001C}' || c == '\U{001D}' || c == '\U{001E}' || c == '\U{0085}'
    || c == '\U{2028}' || c == '\U{2029}'
  }

  predicate NoBoundary(line: string) {
    forall k :: 0 <= k < |line| ==> !IsLineBoundary(line[k])
  }

  /** Index of the first line boundary at or after `i`, or `|s|` when none. */
  function LineEnd(s: string, i: nat): (e: nat)
    requires i <= |s|
    ensures i <= e <= |s|
    ensures e < |s| ==> IsLineBoundary(s[e])
    ensures forall k :: i <= k < e ==> !IsLineBoundary(s[k])
    decreases |s| - i
  {
    if i == |s| || IsLineBoundary(s[i]) then i else LineEnd(s, i + 1)
  }

  /** `str.splitlines()`: the lines without their boundaries; a boundary at
      the very end does not start an extra empty line, and `""` has no lines. */
  function SplitLines(s: string): (lines: seq<string>)
    ensures forall n :: 0 <= n < |lines| ==> NoBoundary(lines[n])
    ensures |lines| <= |s|
    decreases |s|
  {
    if s == [] then []
    else
      var e := LineEnd(s, 0);
      if e == |s| then [s]
      else
        var next := if s[e] == '\r' && e + 1 < |s| && s[e + 1] == '\n' then e + 2 else e + 1;
        [s[..e]] + SplitLines(s[next..])
  }

  /** `sep.join(parts)`. */
  function JoinWith(sep: string, parts: seq<string>): string
    decreases |parts|
  {
    if |parts| == 0 then ""
    else if |parts| == 1 then parts[0]
    else parts[0] + sep + JoinWith(sep, parts[1..])
  }

  /** `splitlines` undoes a `"\n"`-join of boundary-free lines, provided the
      last line is not empty (a trailing newline adds no line). */
  lemma {:induction false} SplitLinesJoin(lines: seq<string>)
    requires forall n :: 0 <= n < |lines| ==> NoBoundary(lines[n])
    requires |lines| == 0 || lines[|lines| - 1] != ""
    ensures SplitLines(JoinWith("\n", lines)) == lines
    decreases |lines|
  {
    if |lines| == 0 {
    } else if |lines| == 1 {
      var s := lines[0];
      assert NoBoundary(s);
      assert LineEnd(s, 0) == |s|;
    } else {
      var rest := JoinWith("\n", lines[1..]);
      var s := lines[0] + "\n" + rest;
      assert JoinWith("\n", lines) == s;
      assert NoBoundary(lines[0]);
      var e := LineEnd(s, 0);
      assert s[|lines[0]|] == '\n';
      assert forall k :: 0 <= k < |lines[0]| ==> s[k] == lines[0][k];
      assert e == |lines[0]|;
      assert s[..e] == lines[0];
      assert s[e + 1..] == rest;
      SplitLinesJoin(lines[1..]);
    }
  }

  /** One line boundary as `str.splitlines` consumes it: `"\r\n"` together, or
      a single boundary character. */
  predicate IsSeparator(sep: string) {
    sep == "\r\n" || (|sep| == 1 && IsLineBoundary(sep[0]))
  }

  /** `lines` with `seps[n]` written after `lines[n]`; with as many separators
      as lines the text ends with a separator. */
  function Interleave(lines: seq<string>, seps: seq<string>): string
    requires |seps| <= |lines| <= |seps| + 1
    decreases |lines|
  {
    if lines == [] then ""
    else if seps == [] then lines[0]
    else lines[0] + seps[0] + Interleave(lines[1..], seps[1..])
  }

  /** A lone `"\r"`, an empty line and then `"\n"` would read as one `"\r\n"`. */
  predicate SeparatorsApart(lines: seq<string>, seps: seq<string>)
    requires |seps| <= |lines|
  {
    forall n :: 0 <= n && n + 1 < |seps| && seps[n] == "\r" && lines[n + 1] == "" ==> seps[n + 1] != "\n"
  }

  /** An interleaved text starts with `\n` only through an empty first line
      followed by the separator `"\n"`. */
  lemma InterleaveStart(lines: seq<string>, seps: seq<string>)
    requires |seps| <= |lines| <= |seps| + 1
    requires forall n :: 0 <= n < |lines| ==> NoBoundary(lines[n])
    requires forall n :: 0 <= n < |seps| ==> IsSeparator(seps[n])
    requires Interleave(lines, seps) != ""
    ensures Interleave(lines, seps)[0] == '\n' ==> lines[0] == "" && seps != [] && seps[0] == "\n"
  {
    var s := Interleave(lines, seps);
    assert NoBoundary(lines[0]);
    if seps == [] {
      assert s[0] == lines[0][0];
    } else if lines[0] != "" {
      assert s[0] == lines[0][0];
    } else {
      assert IsSeparator(seps[0]);
      assert s[0] == seps[0][0];
      if |seps[0]| == 1 {
        assert seps[0] == [seps[0][0]];
      }
    }
  }

  /** `splitlines` undoes any interleaving of boundary-free lines with
      separators, a final separator included, provided the text does not
      end in an empty line without one and no lone `"\r"` merges with a
      following `"\n"`. */
  lemma {:induction false} SplitLinesInterleave(lines: seq<string>, seps: seq<string>)
    requires |seps| <= |lines| <= |seps| + 1
    requires forall n :: 0 <= n < |lines| ==> NoBoundary(lines[n])
    requires forall n :: 0 <= n < |seps| ==> IsSeparator(seps[n])
    requires SeparatorsApart(lines, seps)
    requires |seps| == |lines| || lines[|lines| - 1] != ""
    ensures SplitLines(Interleave(lines, seps)) == lines
    decreases |lines|
  {
    if lines == [] {
    } else if seps == [] {
      var s := lines[0];
      assert NoBoundary(s);
      assert LineEnd(s, 0) == |s|;
    } else {
      var rest := Interleave(lines[1..], seps[1..]);
      assert Interleave(lines, seps) == lines[0] + seps[0] + rest;
      InterleaveTail(lines, seps);
      InterleaveNoMerge(lines, seps);
      SplitLinesStep(lines[0], seps[0], rest);
      SplitLinesInterleave(lines[1..], seps[1..]);
    }
  }

  /** The tails of well-formed lines and separators are well-formed. */
  lemma InterleaveTail(lines: seq<string>, seps: seq<string>)
    requires seps != [] && |seps| <= |lines| <= |seps| + 1
    requires forall n :: 0 <= n < |lines| ==> NoBoundary(lines[n])
    requires forall n :: 0 <= n < |seps| ==> IsSeparator(seps[n])
    requires SeparatorsApart(lines, seps)
    ensures NoBoundary(lines[0]) && IsSeparator(seps[0])
    ensures forall n :: 0 <= n < |lines[1..]| ==> NoBoundary(lines[1..][n])
    ensures forall n :: 0 <= n < |seps[1..]| ==> IsSeparator(seps[1..][n])
    ensures SeparatorsApart(lines[1..], seps[1..])
  {
    assert forall n :: 0 <= n < |lines[1..]| ==> lines[1..][n] == lines[n + 1];
    assert forall n :: 0 <= n < |seps[1..]| ==> seps[1..][n] == seps[n + 1];
  }

  /** A lone `"\r"` after the first line is not followed by `\n`. */
  lemma InterleaveNoMerge(lines: seq<string>, seps: seq<string>)
    requires seps != [] && |seps| <= |lines| <= |seps| + 1
    requires forall n :: 0 <= n < |lines[1..]| ==> NoBoundary(lines[1..][n])
    requires forall n :: 0 <= n < |seps[1..]| ==> IsSeparator(seps[1..][n])
    requires SeparatorsApart(lines, seps)
    ensures var rest := Interleave(lines[1..], seps[1..]);
      seps[0] == "\r" && rest != "" ==> rest[0] != '\n'
  {
    var rest := Interleave(lines[1..], seps[1..]);
    if seps[0] == "\r" && rest != "" {
      InterleaveStart(lines[1..], seps[1..]);
    }
  }

  /** One line and its separator come off the front of the text. */
  lemma SplitLinesStep(l: string, sep: string, rest: string)
    requires NoBoundary(l) && IsSeparator(sep)
    requires sep == "\r" && rest != "" ==> rest[0] != '\n'
    ensures SplitLines(l + sep + rest) == [l] + SplitLines(rest)
  {
    var s := l + sep + rest;
    var e := LineEnd(s, 0);
    assert s[|l|] == sep[0];
    assert forall k :: 0 <= k < |l| ==> s[k] == l[k];
    assert e == |l|;
    assert s[..e] == l;
    if sep == "\r" && rest != "" {
      assert s[e + 1] == rest[0];
    }
    assert s[e + |sep|..] == rest;
  }

  /** `str.replace(p, r)` for a non-empty `p`: occurrences are replaced from
      left to right, and a replaced occurrence is not looked at again. */
  function ReplaceAll(s: string, p: string, r: string): (t: string)
    requires p != ""
    ensures |r| <= |p| ==> |t| <= |s|
    decreases |s|
  {
    if s == "" then ""
    else if OccursAt(s, 0, p) then r + ReplaceAll(s[|p|..], p, r)
    else [s[0]] + ReplaceAll(s[1..], p, r)
  }

  /** A string without the pattern comes back unchanged. */
  lemma {:induction false} ReplaceAllAbsent(s: string, p: string, r: string)
    requires p != ""
    requires forall k :: 0 <= k <= |s| ==> !OccursAt(s, k, p)
    ensures ReplaceAll(s, p, r) == s
    decreases |s|
  {
    if s != "" {
      assert !OccursAt(s, 0, p);
      forall k | 0 <= k <= |s[1..]|
        ensures !OccursAt(s[1..], k, p)
      {
        assert !OccursAt(s, k + 1, p);
        if k + |p| <= |s[1..]| {
          assert s[1..][k..k + |p|] == s[k + 1..k + 1 + |p|];
        }
      }
      ReplaceAllAbsent(s[1..], p, r);
    }
  }

  /** Removing an occurrence that the scan reaches leaves the text around it:
      a prefix free of the pattern is kept, the occurrence is dropped. */
  lemma {:induction false} ReplaceAllSkipsPrefix(a: string, p: string, b: string)
    requires p != ""
    requires forall k :: 0 <= k < |a| ==> !OccursAt(a + p + b, k, p)
    ensures ReplaceAll(a + p + b, p, "") == a + ReplaceAll(b, p, "")
    decreases |a|
  {
    var s := a + p + b;
    if a == "" {
      assert s == p + b;
      assert OccursAt(s, 0, p);
      assert s[|p|..] == b;
    } else {
      assert !OccursAt(s, 0, p);
      assert s[1..] == a[1..] + p + b;
      forall k | 0 <= k < |a[1..]|
        ensures !OccursAt(a[1..] + p + b, k, p)
      {
        assert !OccursAt(s, k + 1, p);
        assert (a[1..] + p + b)[k..k + |p|] == s[k + 1..k + 1 + |p|];
      }
      ReplaceAllSkipsPrefix(a[1..], p, b);
      assert [s[0]] + a[1..] == a;
    }
  }
}

=== FILE: timelines.dfy ===
/** Time lines of a lesson's text, `lectocal/lectio.py:180-238`.

    Two regular expressions are involved. `_is_time_line` decides whether a
    line is a time line with the pattern
      `D/M-YYYY (Hele dagen|HH:MM til (D/M-YYYY )?HH:MM)`
    and `_get_time_from_line` then reads the FIRST date of the line with
      `(D/M-YYYY)(?: (HH:MM) til (D/M-YYYY)? ?(HH:MM))?`
    where `D` and `M` are one or two digits. The two need not agree on where
    they match: the reading pattern takes the leftmost date even when the
    deciding pattern matched further right. */
module TimeLines {
  import opened Wrappers
  import opened Errors
  import opened Patterns

  /** A calendar date as written: day, month, year. */
  datatype Date = Date(day: nat, month: nat, year: nat)

  /** A time of day: hour and minute. */
  datatype Clock = Clock(hour: nat, minute: nat)

  /** Python's `date` (a whole day) or `datetime` (a moment on a day). */
  datatype When = DateOnly(date: Date) | DateTime(date: Date, clock: Clock)

  /** What `_get_time_from_line` returns: `(start, end, is_top)`. */
  datatype TimeRange = TimeRange(start: When, end: When, isTop: bool)

  /** The four capture groups of the reading pattern. */
  datatype TimeFields = TimeFields(startDate: Date, startTime: Option<Clock>,
                                   endDate: Option<Date>, endTime: Option<Clock>)

  // ---------------------------------------------------------------- tokens

  /** `s[i..j]` is one or more digits and `sep` stands right after them. */
  predicate DigitsThen(s: string, i: nat, j: nat, sep: char) {
    i < j < |s| && AllDigits(s[i..j]) && s[j] == sep
  }

  /** `\d{1,2}` followed by `sep`: two digits are tried first, then one, as the
      greedy quantifier does. The number and the index after `sep`. */
  function NumberThen(s: string, i: nat, sep: char): (r: Option<(nat, nat)>)
    ensures r.Some? ==> i + 2 <= r.value.1 <= i + 3 && r.value.1 <= |s|
    ensures r.Some? ==> DigitAt(s, i) && r.value.0 < 100
    ensures r.Some? ==> DigitsThen(s, i, r.value.1 - 1, sep) && r.value.0 == NumberValue(s[i..r.value.1 - 1])
    ensures r.None? <==> !DigitsThen(s, i, i + 1, sep) && !DigitsThen(s, i, i + 2, sep)
  {
    if DigitAt(s, i) && DigitAt(s, i + 1) && CharAt(s, i + 2, sep) then
      assert AllDigits(s[i..i + 2]);
      NumberValueSnoc(s, i, i + 2);
      NumberValueSnoc(s, i, i + 1);
      Some((10 * DigitValue(s[i]) + DigitValue(s[i + 1]), i + 3))
    else if DigitAt(s, i) && CharAt(s, i + 1, sep) then
      assert AllDigits(s[i..i + 1]);
      NumberValueSnoc(s, i, i + 1);
      Some((DigitValue(s[i]), i + 2))
    else None
  }

  /** Two digit runs ended by the same non-digit separator end at the same place. */
  lemma DigitsThenUnique(s: string, i: nat, j: nat, j': nat, sep: char)
    requires !IsDigit(sep)
    requires DigitsThen(s, i, j, sep) && DigitsThen(s, i, j', sep)
    ensures j == j'
  {
  }

  /** `\d{4}`: the number and the index after it. */
  function FourDigitsAt(s: string, i: nat): (r: Option<(nat, nat)>)
    ensures r.Some? ==> r.value.1 == i + 4 <= |s| && r.value.0 < 10000
    ensures r.Some? <==> i + 4 <= |s| && AllDigits(s[i..i + 4])
    ensures r.Some? ==> AllDigits(s[i..i + 4]) && r.value.0 == NumberValue(s[i..i + 4])
  {
    if DigitAt(s, i) && DigitAt(s, i + 1) && DigitAt(s, i + 2) && DigitAt(s, i + 3) then
      assert AllDigits(s[i..i + 4]);
      NumberValueSnoc(s, i, i + 4);
      NumberValueSnoc(s, i, i + 3);
      NumberValueSnoc(s, i, i + 2);
      NumberValueSnoc(s, i, i + 1);
      Some((1000 * DigitValue(s[i]) + 100 * DigitValue(s[i + 1])
            + 10 * DigitValue(s[i + 2]) + DigitValue(s[i + 3]), i + 4))
    else None
  }

  /** The text at `i` is a date `D/M-YYYY`: the day's digits run from `i` to the
      slash at `j`, the month's from `j + 1` to the dash at `k`, the year's
      four digits follow the dash, and `d` holds the numbers they spell. */
  predicate DateLayout(s: string, i: nat, j: nat, k: nat, d: Date) {
    && j <= i + 2 && DigitsThen(s, i, j, '/')
    && k <= j + 3 && DigitsThen(s, j + 1, k, '-')
    && k + 5 <= |s| && AllDigits(s[k + 1..k + 5])
    && d == Date(NumberValue(s[i..j]), NumberValue(s[j + 1..k]), NumberValue(s[k + 1..k + 5]))
  }

  /** `\d{1,2}/\d{1,2}-\d{4}`: the date and the index after it. */
  function DateAt(s: string, i: nat): (r: Option<(Date, nat)>)
    ensures r.Some? ==> i + 8 <= r.value.1 <= i + 10 && r.value.1 <= |s|
    ensures r.Some? ==> DigitAt(s, i)
    ensures r.Some? ==> exists j: nat, k: nat :: DateLayout(s, i, j, k, r.value.0) && r.value.1 == k + 5
  {
    match NumberThen(s, i, '/')
    case None => None
    case Some((d, j)) =>
      match NumberThen(s, j, '-')
      case None => None
      case Some((m, k)) =>
        match FourDigitsAt(s, k)
        case None => None
        case Some((y, e)) =>
          assert DateLayout(s, i, j - 1, k - 1, Date(d, m, y));
          Some((Date(d, m, y), e))
  }

  /** The converse: wherever the text has the date layout, `DateAt` reads
      exactly that date. */
  lemma DateLayoutRead(s: string, i: nat, j: nat, k: nat, d: Date)
    requires DateLayout(s, i, j, k, d)
    ensures DateAt(s, i) == Some((d, k + 5))
  {
    var (_, j1) := NumberThen(s, i, '/').value;
    DigitsThenUnique(s, i, j, j1 - 1, '/');
    var (_, k1) := NumberThen(s, j + 1, '-').value;
    DigitsThenUnique(s, j + 1, k, k1 - 1, '-');
    assert FourDigitsAt(s, k + 1).Some?;
  }

  /** `HH:MM` at `i`: two digits, a colon and two digits. */
  predicate ClockLayout(s: string, i: nat) {
    i + 5 <= |s| && AllDigits(s[i..i + 2]) && s[i + 2] == ':' && AllDigits(s[i + 3..i + 5])
  }

  lemma ClockLayoutChars(s: string, i: nat)
    ensures ClockLayout(s, i) ==>
      && DigitAt(s, i) && DigitAt(s, i + 1) && CharAt(s, i + 2, ':')
      && DigitAt(s, i + 3) && DigitAt(s, i + 4)
  {
    if ClockLayout(s, i) {
      assert s[i..i + 2][0] == s[i] && s[i..i + 2][1] == s[i + 1];
      assert s[i + 3..i + 5][0] == s[i + 3] && s[i + 3..i + 5][1] == s[i + 4];
    }
  }

  /** `\d{2}:\d{2}`: the clock and the index after it. */
  function ClockAt(s: string, i: nat): (r: Option<(Clock, nat)>)
    ensures r.Some? ==> r.value.1 == i + 5 <= |s|
    ensures r.Some? <==> ClockLayout(s, i)
    ensures r.Some? ==>
      && ClockLayout(s, i)
      && r.value.0 == Clock(NumberValue(s[i..i + 2]), NumberValue(s[i + 3..i + 5]))
  {
    if DigitAt(s, i) && DigitAt(s, i + 1) && CharAt(s, i + 2, ':')
       && DigitAt(s, i + 3) && DigitAt(s, i + 4) then
      assert s[i..i + 2][0] == s[i] && s[i..i + 2][1] == s[i + 1];
      assert s[i + 3..i + 5][0] == s[i + 3] && s[i + 3..i + 5][1] == s[i + 4];
      assert AllDigits(s[i..i + 2]) && AllDigits(s[i + 3..i + 5]);
      NumberValueSnoc(s, i, i + 2);
      NumberValueSnoc(s, i, i + 1);
      NumberValueSnoc(s, i + 3, i + 5);
      NumberValueSnoc(s, i + 3, i + 4);
      Some((Clock(10 * DigitValue(s[i]) + DigitValue(s[i + 1]),
                  10 * DigitValue(s[i + 3]) + DigitValue(s[i + 4])), i + 5))
    else
      ClockLayoutChars(s, i);
      None
  }

  // ------------------------------------------------- deciding: _is_time_line

  /** `(D/M-YYYY )?HH:MM` after the word `til`. */
  predicate EndClockAt(s: string, p: nat) {
    || (match DateAt(s, p)
        case None => false
        case Some((_, q)) => CharAt(s, q, ' ') && ClockAt(s, q + 1).Some?)
    || ClockAt(s, p).Some?
  }

  /** `HH:MM til (D/M-YYYY )?HH:MM`. */
  predicate ClockRangeAt(s: string, i: nat) {
    match ClockAt(s, i)
    case None => false
    case Some((_, k)) => OccursAt(s, k, " til ") && EndClockAt(s, k + 5)
  }

  /** The deciding pattern, anchored at `i`. */
  predicate TimeLineAt(s: string, i: nat) {
    match DateAt(s, i)
    case None => false
    case Some((_, j)) =>
      CharAt(s, j, ' ') && (OccursAt(s, j + 1, "Hele dagen") || ClockRangeAt(s, j + 1))
  }

  function TimeLineMatcher(): (string, nat) -> Option<()> {
    (s: string, i: nat) => if TimeLineAt(s, i) then Some(()) else None
  }

  /** `_is_time_line`: the deciding pattern matches somewhere in the line. */
  predicate IsTimeLine(line: string) {
    SearchFrom(TimeLineMatcher(), line, 0).Some?
  }

  lemma TimeLineAtMakesTimeLine(line: string, i: nat)
    requires i <= |line| && TimeLineAt(line, i)
    ensures IsTimeLine(line)
  {
    assert TimeLineMatcher()(line, i).Some?;
  }

  // ----------------------------------------------- reading: _get_time_from_line

  /** The clock `c` is written at `i`, or after a space at `i`. */
  predicate SpacedClockReads(s: string, i: nat, c: Clock) {
    || (CharAt(s, i, ' ') && ClockAt(s, i + 1) == Some((c, i + 6)))
    || ClockAt(s, i) == Some((c, i + 5))
  }

  /** ` ?HH:MM`: the optional space is tried first, then left out. */
  function SpacedClockAt(s: string, i: nat): (r: Option<Clock>)
    ensures r.Some? ==> SpacedClockReads(s, i, r.value)
  {
    if CharAt(s, i, ' ') && ClockAt(s, i + 1).Some? then Some(ClockAt(s, i + 1).value.0)
    else match ClockAt(s, i)
      case Some((c, _)) => Some(c)
      case None => None
  }

  /** The end `d`, `c` is written at `p`: the clock alone, or the date `d`
      followed by the clock. */
  predicate EndReads(s: string, p: nat, d: Option<Date>, c: Clock) {
    match d
    case None => SpacedClockReads(s, p, c)
    case Some(date) =>
      match DateAt(s, p)
      case None => false
      case Some((read, q)) => read == date && SpacedClockReads(s, q, c)
  }

  /** `(D/M-YYYY)? ?(HH:MM)`: the optional end date is tried first, then left out. */
  function EndAt(s: string, p: nat): (r: Option<(Option<Date>, Clock)>)
    ensures r.Some? ==> EndReads(s, p, r.value.0, r.value.1)
  {
    var dated :=
      match DateAt(s, p)
      case None => None
      case Some((d, q)) =>
        match SpacedClockAt(s, q)
        case None => None
        case Some(c) => Some((Some(d), c));
    if dated.Some? then dated
    else match SpacedClockAt(s, p)
      case None => None
      case Some(c) => Some((None, c))
  }

  /** The group ` <t1> til <end>` is written at `j`. */
  predicate RangeReads(s: string, j: nat, t1: Clock, d2: Option<Date>, t2: Clock) {
    && CharAt(s, j, ' ') && ClockAt(s, j + 1) == Some((t1, j + 6))
    && OccursAt(s, j + 6, " til ") && EndReads(s, j + 11, d2, t2)
  }

  /** The optional group ` (HH:MM) til (D/M-YYYY)? ?(HH:MM)` after the start date. */
  function RangeAt(s: string, j: nat): (r: Option<(Clock, Option<Date>, Clock)>)
    ensures r.Some? ==>
      && RangeReads(s, j, r.value.0, r.value.1, r.value.2)
      && EndAt(s, j + 11) == Some((r.value.1, r.value.2))
  {
    if !CharAt(s, j, ' ') then None
    else match ClockAt(s, j + 1)
      case None => None
      case Some((t1, k)) =>
        if !OccursAt(s, k, " til ") then None
        else match EndAt(s, k + 5)
          case None => None
          case Some((d2, t2)) => Some((t1, d2, t2))
  }

  /** A date never starts where a clock does: the date's first separator is
      a slash where the clock has a digit or its colon. */
  lemma DateIsNoClock(s: string, p: nat)
    ensures DateAt(s, p).Some? ==> !ClockLayout(s, p)
  {
    ClockLayoutChars(s, p);
  }

  /** A spaced clock is read as it is written. */
  lemma SpacedClockRead(s: string, i: nat, c: Clock)
    requires SpacedClockReads(s, i, c)
    ensures SpacedClockAt(s, i) == Some(c)
  {
    ClockLayoutChars(s, i);
  }

  /** `EndAt`'s partner: wherever an end is written, `EndAt` reads exactly
      that end. A date and a spaced clock cannot both start at `p`, so the
      order in which they are tried does not matter. */
  lemma EndReadsRead(s: string, p: nat, d: Option<Date>, c: Clock)
    requires EndReads(s, p, d, c)
    ensures EndAt(s, p) == Some((d, c))
  {
    match d
    case Some(date) =>
      SpacedClockRead(s, DateAt(s, p).value.1, c);
    case None =>
      SpacedClockRead(s, p, c);
      DateIsNoClock(s, p);
      ClockLayoutChars(s, p);
  }

  /** `RangeAt`'s partner: wherever the group is written, `RangeAt` reads
      exactly it. */
  lemma RangeReadsRead(s: string, j: nat, t1: Clock, d2: Option<Date>, t2: Clock)
    requires RangeReads(s, j, t1, d2, t2)
    ensures RangeAt(s, j) == Some((t1, d2, t2))
  {
    EndReadsRead(s, j + 11, d2, t2);
  }

  /** Where `RangeAt` finds nothing, no group is written. */
  lemma NoRangeReads(s: string, j: nat)
    requires RangeAt(s, j).None?
    ensures forall t1, d2, t2 :: !RangeReads(s, j, t1, d2, t2)
  {
    forall t1, d2, t2 | RangeReads(s, j, t1, d2, t2) ensures false {
      RangeReadsRead(s, j, t1, d2, t2);
    }
  }

  /** The reading pattern, anchored at `i`. The optional group is greedy, so it
      is taken whenever it matches and skipped otherwise. */
  function TimeFieldsAt(s: string, i: nat): (r: Option<TimeFields>)
    ensures r.Some? <==> DateAt(s, i).Some?
    ensures r.Some? ==> (r.value.startTime.Some? <==> r.value.endTime.Some?)
    ensures r.Some? && r.value.endDate.Some? ==> r.value.startTime.Some?
    ensures r.Some? ==> r.value.startDate == DateAt(s, i).value.0
    ensures r.Some? && r.value.startTime.Some? && r.value.endTime.Some? ==>
      RangeReads(s, DateAt(s, i).value.1, r.value.startTime.value, r.value.endDate, r.value.endTime.value)
    ensures r.Some? && r.value.startTime.None? ==> RangeAt(s, DateAt(s, i).value.1).None?
    ensures r.Some? && r.value.startTime.None? ==>
      forall t1, d2, t2 :: !RangeReads(s, DateAt(s, i).value.1, t1, d2, t2)
  {
    match DateAt(s, i)
    case None => None
    case Some((d1, j)) =>
      match RangeAt(s, j)
      case None =>
        NoRangeReads(s, j);
        Some(TimeFields(d1, None, None, None))
      case Some((t1, d2, t2)) => Some(TimeFields(d1, Some(t1), d2, Some(t2)))
  }

  function TimeFieldsMatcher(): (string, nat) -> Option<TimeFields> {
    (s: string, i: nat) => TimeFieldsAt(s, i)
  }

  // -------------------------------------------------------- strptime checks

  predicate IsLeapYear(y: nat) {
    y % 4 == 0 && (y % 100 != 0 || y % 400 == 0)
  }

  function DaysInMonth(month: nat, year: nat): nat
    requires 1 <= month <= 12
  {
    if month == 2 then (if IsLeapYear(year) then 29 else 28)
    else if month == 4 || month == 6 || month == 9 || month == 11 then 30
    else 31
  }

  /** `strptime(text, "%d/%m-%Y")` succeeds: a real day of the proleptic
      Gregorian calendar from year 1 on. */
  predicate ValidDate(d: Date) {
    && d.year >= 1
    && 1 <= d.month <= 12
    && 1 <= d.day <= DaysInMonth(d.month, d.year)
  }

  /** `strptime(text, "%H:%M")` succeeds. */
  predicate ValidClock(c: Clock) {
    c.hour < 24 && c.minute < 60
  }

  predicate ValidFields(f: TimeFields) {
    && ValidDate(f.startDate)
    && (f.startTime.Some? ==> ValidClock(f.startTime.value))
    && (f.endDate.Some? ==> ValidDate(f.endDate.value))
    && (f.endTime.Some? ==> ValidClock(f.endTime.value))
  }

  /** Lines 217-238: turns the captured groups into `(start, end, is_top)`.
      Without a start time the start is a whole day and the entry is a header
      entry; a missing end date is the start date; the end is a whole day
      exactly when no end time was captured. */
  function ToTimeRange(f: TimeFields): (r: Result<TimeRange, Error>)
    ensures r.Ok? <==> ValidFields(f)
    ensures r.Err? ==> r.error == InvalidDateTimeValue
    ensures r.Ok? ==> (r.value.isTop <==> f.startTime.None?)
    ensures r.Ok? ==> r.value.start.date == f.startDate
    ensures r.Ok? ==> (r.value.start.DateTime? <==> f.startTime.Some?)
    ensures r.Ok? && f.startTime.Some? ==> r.value.start.clock == f.startTime.value
    ensures r.Ok? ==> r.value.end.date == (if f.endDate.Some? then f.endDate.value else f.startDate)
    ensures r.Ok? ==> (r.value.end.DateTime? <==> f.endTime.Some?)
    ensures r.Ok? && f.endTime.Some? ==> r.value.end.clock == f.endTime.value
  {
    if !ValidFields(f) then Err(InvalidDateTimeValue)
    else
      var start := if f.startTime.Some? then DateTime(f.startDate, f.startTime.value) else DateOnly(f.startDate);
      var isTop := f.startTime.None?;
      var endDate := if f.endDate.Some? then f.endDate.value else f.startDate;
      var end := if f.endTime.Some? then DateTime(endDate, f.endTime.value) else DateOnly(endDate);
      Ok(TimeRange(start, end, isTop))
  }

  /** `_get_time_from_line`: reads the leftmost date of the line and the range
      after it. The line is rejected only when it holds no date at all. */
  function GetTimeFromLine(line: string): (r: Result<TimeRange, Error>)
    ensures r == Err(InvalidTimeLine(line)) <==> forall i :: 0 <= i <= |line| ==> DateAt(line, i).None?
    ensures r.Err? ==> r.error == InvalidTimeLine(line) || r.error == InvalidDateTimeValue
    ensures r.Ok? ==> (r.value.isTop <==> r.value.start.DateOnly?)
    ensures r.Ok? ==> (r.value.start.DateOnly? <==> r.value.end.DateOnly?)
  {
    var m := TimeFieldsMatcher();
    assert forall i :: m(line, i) == TimeFieldsAt(line, i);
    assert forall i :: m(line, i).Some? <==> DateAt(line, i).Some?;
    match SearchFrom(m, line, 0)
    case None => Err(InvalidTimeLine(line))
    case Some((_, f)) => ToTimeRange(f)
  }

  /** A line `_is_time_line` accepts always holds a date, so reading it never
      raises `InvalidTimeLineError`. */
  lemma TimeLineHasFields(line: string)
    requires IsTimeLine(line)
    ensures GetTimeFromLine(line).Err? ==> GetTimeFromLine(line).error == InvalidDateTimeValue
  {
    var i := SearchFrom(TimeLineMatcher(), line, 0).value.0;
    assert TimeLineMatcher()(line, i).Some?;
    assert DateAt(line, i).Some?;
  }

  /** The fields are those read at the leftmost date of the line: any date
      further right is never looked at. */
  lemma GetTimeFromLineReads(line: string, i: nat)
    requires i <= |line| && DateAt(line, i).Some?
    requires forall k :: 0 <= k < i ==> DateAt(line, k).None?
    ensures GetTimeFromLine(line) == ToTimeRange(TimeFieldsAt(line, i).value)
  {
    var m := TimeFieldsMatcher();
    assert forall k :: m(line, k) == TimeFieldsAt(line, k);
    var r := SearchFrom(m, line, 0);
    assert m(line, i).Some?;
    assert r.Some? && r.value.0 == i;
  }
}

=== FILE: wrappers.dfy ===
/** Option and Result, the two failure-compatible wrappers the model returns
    in place of Python's `None` and raised exceptions. */
module Wrappers {

  datatype Option<+T> = None | Some(value: T)

  datatype Result<+T, +E> = Ok(value: T) | Err(error: E) {

    predicate IsFailure() {
      Err?
    }

    function PropagateFailure<U>(): Result<U, E>
      requires Err?
    {
      Err(error)
    }

    function Extract(): T
      requires Ok?
    {
      value
    }
  }
}

/** The exceptions `lectocal/lectio.py` raises while turning a tile's text into
    a lesson, one variant per exception class, each carrying the offending line.
    `InvalidDateTimeValue` stands for the `ValueError` that `strptime` raises on
    a date or clock that does not exist. */
module Errors {

  datatype Error =
    | InvalidStatus(line: string)
    | InvalidTimeLine(line: string)
    | InvalidLocation(line: string)
    | InvalidRessources(line: string)
    | InvalidGroups(line: string)
    | InvalidDateTimeValue

  /** The errors that input text can actually provoke from the extraction:
      every other kind is guarded by a classifier that accepts only lines
      the matching extractor succeeds on. */
  predicate Reachable(e: Error) {
    e.InvalidStatus? || e.InvalidDateTimeValue?
  }
}
